=== FILE: README.md ===
# Resource synchronisation core of the admin suite, in Dafny

This project models the client-side synchronisation layer of a small
business-administration dashboard that manages customers (`clientes`),
suppliers (`fornecedores`) and products (`produtos`) stored in a hosted
relational service. It covers four parts.

- **The three resource hooks.** Each hook has a list query under its own cache key, ordered by `created_at` descending. The products query also joins each product to its supplier's `{id, razao_social}`. Each hook also has create, update and delete mutations. Create stamps the signed-in user's id and fails without a user. Update patches every row matching the id and returns the single updated row. Delete filters by id. Every successful mutation invalidates the hook's own key and no other key.
- **The pages' form reconciliation.** This covers:
  - seeding the form from a row (`x || ''`, `toString()`);
  - building the submitted payload. Customers and suppliers send their text verbatim. Products use `parseFloat(x) || 0`, `parseInt(x) || 0` and `fornecedor_id || null`;
  - choosing between update and create from the row being edited;
  - closing and resetting the dialog on success, or keeping it open with a toast on failure;
  - the confirm gate on delete;
  - the search filters (`toLowerCase` and `includes`).
- **The dashboard derivations.** These are the counts (`length ?? 0`), the stock value (a `reduce` of sale price × stock), the five most recent customers, and the first five products with stock below 10, together with their badges.
- **Cross-call properties.** What a list shows after a write, repeated deletes, and suppliers deleted under their products.

How the layers are represented:

- The remote service is a value (`Gateway.Store`) holding each table as a sequence in storage order.
- The query cache is a value (`QueryCache.Cache`).
- Every hook and handler is a pure function from the state before the call to the result and the state after it.
- Whatever the program receives from outside is a parameter:
  - the signed-in user;
  - the identifier and creation time the service assigns;
  - whether the service call fails, and with which message;
  - whether the user confirmed a delete.

Modules, in dependency order:

- `Base`: Option, Result, identifiers, failures and the toast description.
- `Text`: lower-casing and `includes`.
- `Numerals`: `parseInt`, `parseFloat`, `toString` on exact decimals.
- `Rows`: rows, column sets, patches and the product view.
- `Ordering`: newest-first sorting.
- `Gateway`: select, insert, update, delete and the join.
- `QueryCache`: the query cache.
- `Sync`: the application state and the shared create and commit steps.
- `UseClientes`, `UseFornecedores` and `UseProdutos`: the three hooks.
- `Search`: filter and take.
- `Forms`: the dialog state.
- `ClientesPage`, `FornecedoresPage` and `ProdutosPage`: the three pages.
- `Dashboard`: the dashboard derivations.
- `Scenarios`: the cross-call properties.

Two behaviours of the code that are easy to misread:

- **Delete of an absent identifier succeeds.** The delete mutation issues `delete().eq('id', id)` with no `.single()`, so a second delete of the same id is a success that changes nothing, not a "not found" error (`Gateway.Delete`, `Scenarios.DeleteTwice`). An update of an absent identifier does fail, because it ends in `.select().single()` (`Gateway.Update`).
- **Customer and supplier forms send `''`.** An optional field left empty is sent as the empty string, never as null (`ClientesPage.Payload`, `FornecedoresPage.Payload`). So an unchanged edit of a row with a null column rewrites it as `''` (`ClientesPage.UnchangedEdit`). Only the products form converts an empty supplier to null.

## Model

| member | source | states |
|---|---|---|
| Gateway.Select | src/hooks/useClientes.ts:13-19 | the list query fails exactly when the service reports an error, with that error; otherwise it returns every stored row (same multiset) ordered by `created_at` newest first |
| Ordering.SortNewestFirst | src/hooks/useClientes.ts:16 | ordering by `created_at` descending yields a newest-first permutation of the table |
| Ordering.InsertByAge | src/hooks/useClientes.ts:16 | placing one row into a newest-first list keeps it newest-first and adds exactly that row |
| Ordering.SortKeepsUniqueIds | src/hooks/useClientes.ts:13-19 | listing a table never shows two rows with the same identifier when the table has none |
| Ordering.InsertByAgeKeepsUniqueIds | src/hooks/useClientes.ts:16 | inserting a row with a new identifier into a newest-first list keeps identifiers distinct |
| Ordering.NewestRowListedFirst | src/hooks/useClientes.ts:16 | a row newer than every other row is the first one listed |
| Gateway.Insert | src/hooks/useClientes.ts:32-39 | an insert fails on a service error or an identifier already in use and then leaves the table as it was; otherwise it appends exactly the row and returns it |
| Gateway.FindById | src/hooks/useClientes.ts:55 | the `.eq('id', id)` lookup finds a row exactly when one carries that identifier, and the row found carries it |
| Gateway.FindUnique | src/hooks/useClientes.ts:55-57 | in a table with distinct identifiers, `.single()` returns the one row with that identifier |
| Gateway.Update | src/hooks/useClientes.ts:51-60 | an update succeeds exactly when there is no service error and some row has the identifier; rows with other identifiers, and every row's id, owner and creation time, are unchanged; matching rows get the patch; the returned row is the patched row and is in the table; with no matching row nothing changes and `.single()` reports an error |
| Gateway.Without | src/hooks/useClientes.ts:73-76 | after `delete().eq('id', id)` no row has the identifier, every other row remains, no row is added, and an absent identifier leaves the table unchanged |
| Gateway.Delete | src/hooks/useClientes.ts:72-79 | a delete fails only on a service error, leaving the table as it was; otherwise it succeeds, even when no row matches |
| Gateway.SupplierOf | src/hooks/useProdutos.ts:15-18 | the supplier projection is present exactly when the product has a supplier reference and that supplier exists; it then carries that supplier's id and `razao_social` |
| Gateway.JoinSuppliers | src/hooks/useProdutos.ts:15-18 | the join keeps the products and their order and attaches to each its supplier projection |
| Gateway.SelectProdutos | src/hooks/useProdutos.ts:13-22 | the products query fails exactly on a service error; otherwise it lists every stored product newest first, each with its resolved supplier |
| Gateway.WithoutKeepsUniqueIds | src/hooks/useClientes.ts:73-76 | a delete never makes two rows share an identifier |
| Gateway.InsertKeepsUniqueIds | src/hooks/useClientes.ts:32-36 | an insert, successful or not, keeps the table's primary key |
| Gateway.UpdateKeepsUniqueIds | src/hooks/useClientes.ts:51-57 | an update, successful or not, keeps the table's primary key, since it never changes an identifier |
| Gateway.DeleteKeepsUniqueIds | src/hooks/useClientes.ts:73-76 | a delete, successful or not, keeps the table's primary key |
| Gateway.InsertedListedOnce | src/hooks/useClientes.ts:32-39 | a row just inserted is listed exactly once by the next select, and the list has distinct identifiers |
| Gateway.DeletedNeverListed | src/hooks/useClientes.ts:72-79 | after a successful delete the next select lists no row with that identifier |
| QueryCache.MarkStale | src/hooks/useClientes.ts:81 | invalidation keeps the cached rows but marks them for refetching, and does not create an entry that was not there |
| QueryCache.Invalidate | src/hooks/useClientes.ts:80-82 | invalidating a key marks that key's entry stale and leaves the other keys' entries as they were |
| QueryCache.InvalidateIdempotent | src/hooks/useClientes.ts:80-82 | invalidating a key twice is the same as invalidating it once |
| QueryCache.InvalidateCommutes | src/hooks/useClientes.ts:80-82 | invalidations of two keys may happen in either order |
| QueryCache.Settle | src/hooks/useClientes.ts:10-21 | a successful fetch replaces the entry with fresh rows; a failed one leaves the entry as it was |
| Sync.CreateOwned | src/hooks/useClientes.ts:28-39 | with no signed-in user create fails with 'Usuário não autenticado' before any insert; otherwise the input is inserted with `user_id` set to the user's id, and success means a user, no service error and a new identifier |
| Sync.Commit | src/hooks/useClientes.ts:80-82 | a mutation's result is passed through; a success installs the written table and marks only its own key stale; a failure changes neither the store nor the cache |
| UseClientes.Fetch | src/hooks/useClientes.ts:9-22 | the customers query returns the stored customers newest first and caches them fresh; a failure leaves state and cache untouched; other keys are untouched |
| UseClientes.Create | src/hooks/useClientes.ts:24-45 | create fails without a user, or on a service error, with nothing changed; on success the new row is owned by the user, holds the input, is appended to the customers table, only that table changes, and only the `['clientes']` key is invalidated; the primary key is kept |
| UseClientes.Update | src/hooks/useClientes.ts:47-66 | update fails with nothing changed on a service error or when no row has the identifier; on success exactly the matching rows get the patch, the returned row has that identifier and is stored, only the customers table changes and only `['clientes']` is invalidated |
| UseClientes.Delete | src/hooks/useClientes.ts:68-84 | delete fails only on a service error, with nothing changed; on success no row has the identifier, every other row remains, and only `['clientes']` is invalidated; deleting an absent identifier changes no row |
| UseFornecedores.Fetch | src/hooks/useFornecedores.ts:9-22 | the suppliers query returns the stored suppliers newest first and caches them fresh; a failure leaves state and cache untouched |
| UseFornecedores.Create | src/hooks/useFornecedores.ts:24-45 | as for customers: owned by the signed-in user, appended, only `['fornecedores']` invalidated, nothing changed on failure |
| UseFornecedores.Update | src/hooks/useFornecedores.ts:47-66 | as for customers: the matching rows get the patch or the call fails with nothing changed; only `['fornecedores']` invalidated |
| UseFornecedores.Delete | src/hooks/useFornecedores.ts:68-84 | as for customers: the identifier disappears, other rows remain; only `['fornecedores']` invalidated, so the products cache keeps its joined supplier names |
| UseProdutos.Fetch | src/hooks/useProdutos.ts:9-25 | the products query returns the stored products newest first, each with the supplier it resolves to (none when null or dangling), and caches them fresh; a failure changes nothing |
| UseProdutos.Create | src/hooks/useProdutos.ts:27-48 | as for customers: owned by the signed-in user, appended, only `['produtos']` invalidated, nothing changed on failure |
| UseProdutos.Update | src/hooks/useProdutos.ts:50-69 | as for customers: the matching rows get the patch or the call fails with nothing changed; only `['produtos']` invalidated |
| UseProdutos.Delete | src/hooks/useProdutos.ts:71-87 | as for customers: the identifier disappears, other rows remain; only `['produtos']` invalidated |
| Rows.ClienteColumns | src/pages/Clientes.tsx:93 | the update sent from the form sets every customer column, whatever the row held before |
| Rows.FornecedorColumns | src/pages/Fornecedores.tsx:84 | the update sent from the form sets every supplier column |
| Rows.ProdutoColumns | src/pages/Produtos.tsx:116 | the update sent from the form sets every product column |
| Text.Lower | src/pages/Clientes.tsx:49 | `toLowerCase` keeps the length, turns each capital A-Z into its small letter and keeps every other character |
| Text.LowerIdempotent | src/pages/Produtos.tsx:69-70 | lower-casing twice is lower-casing once |
| Text.ContainsIffOccurs | src/pages/Clientes.tsx:49-50 | `includes` holds exactly when the search text occurs at some position |
| Text.ContainsEmpty | src/pages/Clientes.tsx:48-51 | every text includes the empty search |
| Text.ContainsSelf | src/pages/Clientes.tsx:49 | every text includes itself |
| Search.Filter | src/pages/Clientes.tsx:48-51 | `filter` keeps exactly the elements that pass the test, and only elements of the list |
| Search.FilterAppend | src/pages/Clientes.tsx:48-51 | filtering a concatenation filters each part, so the kept elements stay in list order |
| Search.FilterKeepsAll | src/pages/Clientes.tsx:48-51 | a test every element passes keeps the whole list |
| Search.FilterAgree | src/pages/Produtos.tsx:68-71 | two tests that agree on every element keep the same elements |
| Search.Take | src/pages/Dashboard.tsx:64 | `slice(0, n)` is the first `n` elements, or all of them when there are fewer |
| Forms.Reset | src/pages/Clientes.tsx:53-66 | `resetForm` blanks the fields and clears the row being edited without opening or closing the dialog |
| Forms.Open | src/pages/Clientes.tsx:68-86 | `openDialog` opens the dialog, seeded from the row and editing it when one is given, blank and creating otherwise |
| Forms.Conclude | src/pages/Clientes.tsx:91-107 | after a save, success closes and resets the dialog with the success title; failure keeps the dialog and its fields and shows the error's description |
| Base.Describe | src/pages/Clientes.tsx:104 | the toast description is the sign-in message for a create without a user, the service's message when it has one, and 'Tente novamente' otherwise |
| Base.OrEmpty | src/pages/Clientes.tsx:74-80 | the or-empty fallback of a nullable column is its text when it has one and the empty string when it is null |
| Numerals.NatDigitsValue | src/pages/Produtos.tsx:93 | the decimal numeral `toString()` writes for a natural number reads back as that number |
| Numerals.ParseShowInt | src/pages/Produtos.tsx:93-110 | `parseInt` of an integer's `toString()` gives the integer back |
| Numerals.Normalize | src/pages/Produtos.tsx:91-92 | dropping trailing fraction zeros keeps a price's value and leaves no trailing zero |
| Numerals.ParseShowDecimal | src/pages/Produtos.tsx:91-109 | `parseFloat` of a price's `toString()` gives back a price of the same value |
| Numerals.NoDigitsParseNaN | src/pages/Produtos.tsx:108-110 | text with no digit at all is NaN for both `parseInt` and `parseFloat` |
| Numerals.IntOrZero | src/pages/Produtos.tsx:110 | the stock sent for a text is the integer `parseInt` reads from it, or 0 when it reads NaN |
| Numerals.DecimalOrZero | src/pages/Produtos.tsx:108-109 | the price sent for a text has the value `parseFloat` reads from it, or 0 when it reads NaN |
| Numerals.TrimStart | src/pages/Produtos.tsx:108-110 | the parsers skip exactly the leading white space |
| Numerals.DigitRun | src/pages/Produtos.tsx:110 | `parseInt` reads the longest run of digits at the front |
| Numerals.ParseInt | src/pages/Produtos.tsx:110 | `parseInt` reads a number exactly when a digit follows the leading white space and the sign, and a negative number only after a '-' |
| Numerals.EmptyIsNaN | src/pages/Produtos.tsx:108-110 | an empty field is NaN to both `parseInt` and `parseFloat` |
| Numerals.ParseFloat | src/pages/Produtos.tsx:108-109 | `parseFloat` reads a number exactly when a digit, or a '.' and a digit, follows the leading white space and the sign, and a negative number only after a '-' |
| Numerals.ShowInt | src/pages/Produtos.tsx:93 | an integer's `toString()` is non-empty, starts with '-' exactly when the integer is negative, and is otherwise digits |
| Numerals.ShowDecimal | src/pages/Produtos.tsx:91-92 | a price's `toString()` is non-empty and starts with '-' exactly when the price is negative |
| ClientesPage.Seed | src/pages/Clientes.tsx:71-81 | opening a customer shows each column in its field: name and CPF/CNPJ as stored, and each of email, telefone and the five address columns as stored or as the empty string when null |
| ClientesPage.Payload | src/pages/Clientes.tsx:93-96 | the customer form sends each of its nine fields, as typed, to the column of the same name; an empty optional field is sent as `''`, never null |
| ClientesPage.SeedPayload | src/pages/Clientes.tsx:68-96 | a customer saved from a form and opened again shows exactly that form |
| ClientesPage.UnchangedEdit | src/pages/Clientes.tsx:68-96 | opening a customer and saving it unchanged writes back the same columns exactly when none of its optional columns is null; a null one comes back as `''` |
| ClientesPage.OpenDialog | src/pages/Clientes.tsx:68-86 | opening the dialog for a customer edits that customer with seeded fields; opening it with none shows a blank form |
| ClientesPage.HandleSubmit | src/pages/Clientes.tsx:88-108 | a save updates the edited customer with the form or creates one from it; success happens exactly when the service accepts it; on an edit the matching rows then hold the form's columns with their id, owner and creation time kept, and every other row is unchanged; a create appends the new row; the dialog closes and resets, the right title shows, and only `['clientes']` is invalidated; failure leaves the dialog, fields and state as they were and shows 'Erro ao salvar cliente' with the service's message, 'Usuário não autenticado' when nobody is signed in, or 'Tente novamente' when the edited row no longer exists or the new identifier is taken |
| ClientesPage.GatedSubmitKeepsMandatory | src/pages/Clientes.tsx:213-231 | a save from a form that passed the browser's `required` check on name and CPF/CNPJ never leaves a stored customer with an empty name or CPF/CNPJ |
| ClientesPage.HandleDelete | src/pages/Clientes.tsx:110-123 | without confirmation nothing happens; a confirmed delete removes every row with the identifier, keeps every other customer, adds none, shows the success title and invalidates only `['clientes']`; on a service error it shows the error and changes nothing |
| ClientesPage.Filtered | src/pages/Clientes.tsx:48-51 | the filtered list exists once the data does, and holds exactly the customers whose lower-cased name includes the lower-cased search or whose CPF/CNPJ includes the search |
| ClientesPage.EmptySearchListsAll | src/pages/Clientes.tsx:48-51 | an empty search shows every customer, in order |
| ClientesPage.SearchByNameFinds | src/pages/Clientes.tsx:49 | searching for a customer's name in any letter case finds it |
| FornecedoresPage.Seed | src/pages/Fornecedores.tsx:65-72 | opening a supplier shows each column in its field: company name and CNPJ as stored, and each of categoria, contato_nome, contato_email and contato_telefone as stored or as `''` when null |
| FornecedoresPage.Payload | src/pages/Fornecedores.tsx:84-87 | the supplier form sends each of its six fields, as typed, to the column of the same name; an empty optional field is sent as `''`, never null |
| FornecedoresPage.SeedPayload | src/pages/Fornecedores.tsx:62-87 | a supplier saved from a form and opened again shows exactly that form |
| FornecedoresPage.UnchangedEdit | src/pages/Fornecedores.tsx:62-87 | an unchanged edit writes back the same columns exactly when no optional column is null |
| FornecedoresPage.OpenDialog | src/pages/Fornecedores.tsx:62-77 | opening the dialog for a supplier edits it with seeded fields; opening it with none shows a blank form |
| FornecedoresPage.HandleSubmit | src/pages/Fornecedores.tsx:79-99 | as for customers, with the supplier titles and only `['fornecedores']` invalidated: an edit frames every other row, and a failure shows the service's message, the sign-in message or 'Tente novamente' |
| FornecedoresPage.GatedSubmitKeepsMandatory | src/pages/Fornecedores.tsx:204-222 | a save from a form that passed the browser's `required` check on company name and CNPJ never leaves a stored supplier with an empty company name or CNPJ |
| FornecedoresPage.HandleDelete | src/pages/Fornecedores.tsx:101-114 | without confirmation nothing happens; a confirmed delete removes the supplier, keeps every other supplier and adds none, or shows the error and changes nothing |
| FornecedoresPage.Filtered | src/pages/Fornecedores.tsx:45-48 | exactly the suppliers whose lower-cased company name includes the lower-cased search or whose CNPJ includes the search |
| FornecedoresPage.EmptySearchListsAll | src/pages/Fornecedores.tsx:45-48 | an empty search shows every supplier, in order |
| FornecedoresPage.SearchByNameFinds | src/pages/Fornecedores.tsx:46 | searching for a supplier's company name in any letter case finds it |
| ProdutosPage.IdText | src/pages/Produtos.tsx:94 | the supplier field is empty exactly when the product has no supplier |
| ProdutosPage.IdOrNull | src/pages/Produtos.tsx:111 | an empty supplier field is sent as null, any other as that identifier |
| ProdutosPage.IdTextRoundTrip | src/pages/Produtos.tsx:94-111 | the supplier reference survives the round trip through the form |
| ProdutosPage.Seed | src/pages/Produtos.tsx:88-95 | opening a product shows its name and SKU as stored, its prices and stock as `toString()` writes them, and its supplier identifier or `''` when it has none |
| ProdutosPage.Payload | src/pages/Produtos.tsx:105-112 | the payload has the form's name and SKU, prices of the parsed value or 0 for NaN, the parsed stock or 0, and for the supplier null exactly when the field is empty and otherwise the identifier typed |
| ProdutosPage.UnchangedEdit | src/pages/Produtos.tsx:85-112 | opening a product and saving it unchanged writes back the same name, SKU, prices (as numbers), stock and supplier |
| ProdutosPage.NoDigitsSendZero | src/pages/Produtos.tsx:108-110 | a cost price, sale price or stock field that is empty or holds no digit is sent as 0 |
| ProdutosPage.OpenDialog | src/pages/Produtos.tsx:85-100 | opening the dialog for a product edits it with seeded fields; opening it with none shows a blank form |
| ProdutosPage.HandleSubmit | src/pages/Produtos.tsx:102-131 | as for customers, with the converted payload, the product titles and only `['produtos']` invalidated: an edit frames every other row, and a failure shows the service's message, the sign-in message or 'Tente novamente' |
| ProdutosPage.PriceFieldNonNegative | src/pages/Produtos.tsx:266-287 | a price the `min="0"` number input lets through, or an empty one, is sent as a number that is not negative |
| ProdutosPage.StockFieldNonNegative | src/pages/Produtos.tsx:288-296 | a stock the `min="0"` number input lets through, or an empty one, is sent as a count that is not negative |
| ProdutosPage.GatedPayloadIsSane | src/pages/Produtos.tsx:246-296 | a form that passed the browser's checks sends a name, a SKU, and prices and stock that are not negative |
| ProdutosPage.GatedSubmitKeepsSane | src/pages/Produtos.tsx:102-131 | a save from a form that passed the browser's checks keeps every stored product with a name, a SKU, and prices and stock that are not negative |
| ProdutosPage.HandleDelete | src/pages/Produtos.tsx:133-146 | without confirmation nothing happens; a confirmed delete removes the product, keeps every other product and adds none, or shows the error and changes nothing |
| ProdutosPage.Filtered | src/pages/Produtos.tsx:68-71 | exactly the products whose lower-cased name or SKU includes the lower-cased search |
| ProdutosPage.EmptySearchListsAll | src/pages/Produtos.tsx:68-71 | an empty search shows every product, in order |
| ProdutosPage.SearchIgnoresCase | src/pages/Produtos.tsx:69-70 | the product search gives the same list for the search text and its lower-case form |
| ProdutosPage.SearchBySkuFinds | src/pages/Produtos.tsx:70 | searching for a product's SKU in any letter case finds it |
| Dashboard.Total | src/pages/Dashboard.tsx:14-16 | a count is the length of the loaded list, 0 before it loads |
| Dashboard.StockSumAppend | src/pages/Dashboard.tsx:17-20 | the stock value of two lists together is the sum of their stock values |
| Dashboard.StockSumPermutation | src/pages/Dashboard.tsx:17-20 | the stock value does not depend on the order the products are listed in |
| Dashboard.StockSumNonNegative | src/pages/Dashboard.tsx:17-20 | with no negative price or stock the stock value is not negative |
| Scenarios.GatedSubmitsKeepStockValueNonNegative | src/pages/Dashboard.tsx:17-20 | while every product was saved through the browser-checked form, the dashboard's stock value stays non-negative after any further save |
| Dashboard.ValorEstoque | src/pages/Dashboard.tsx:17-20 | the `reduce` loop computes the sum of sale price × stock over the listed products, 0 before they load |
| Dashboard.RecentClientes | src/pages/Dashboard.tsx:60-81 | the recent-customers panel shows the loading text while loading, the empty message exactly when no customer is loaded, and otherwise the first five (or all) listed customers |
| Dashboard.RecentAreNewest | src/pages/Dashboard.tsx:62-64 | with the list newest first, no customer left out of the panel is newer than one shown |
| Dashboard.LowStock | src/pages/Dashboard.tsx:90-114 | the low-stock panel shows the all-stocked message exactly when no loaded product has stock below 10, and otherwise five of them, or all of them when there are fewer, each with stock below 10 and in the list |
| Dashboard.LowStockKeepsOrder | src/pages/Dashboard.tsx:94-96 | the products shown are the first of the low-stock products, in list order |
| Dashboard.StockBadge | src/pages/Dashboard.tsx:106 | a low-stock quantity is coloured as destructive exactly when it is 0, otherwise as a warning |
| Dashboard.WarningBadgesAreLowButStocked | src/pages/Dashboard.tsx:92-106 | every product in the low-stock panel that shows a warning has a stock below 10 and other than 0 |
| Scenarios.CreatedListedOnce | src/hooks/useClientes.ts:24-45 | after a customer is created, the refetched list shows it exactly once, with distinct identifiers, and first when it is newer than every stored customer |
| Scenarios.DeletedNotListed | src/hooks/useProdutos.ts:71-87 | after a product is deleted, no refetched list shows a product with that identifier |
| Scenarios.DeleteTwice | src/hooks/useClientes.ts:68-84 | deleting the same customer twice succeeds both times and the second call changes no row |
| Scenarios.SupplierDeletedUnderProducts | src/hooks/useFornecedores.ts:68-84 | with the products table unconstrained, deleting a supplier leaves the products table and its cache entry untouched; on the next products fetch, products that still refer to it show no supplier |
| Scenarios.TotalsMatchStore | src/pages/Dashboard.tsx:14-16 | once loaded, the dashboard counts equal the numbers of stored customers, suppliers and products |
| Scenarios.StockValueMatchesStore | src/pages/Dashboard.tsx:17-20 | the stock value of the loaded product list equals that of the stored products |
| Scenarios.EditAfterDelete | src/pages/Clientes.tsx:88-108 | saving an edit of a customer deleted meanwhile fails: the dialog stays open with its fields, nothing is written, and the toast shows the generic description |

## Left out

- Network, transport and authentication sessions. The service is a value, and a failure is an input.
- Row-level security. The store is the signed-in user's view of the tables.
- The service's own column defaults and `updated_at`.
- The query cache's internals: request coalescing, retries, background refetching, garbage collection and the `isPending` / `isLoading` flags. Only the entry, its staleness and invalidation are modelled. The loading flag of the dashboard panels is a parameter.
- Concurrency. Two mutations racing at the service are not modelled; each call is atomic. `Scenarios.EditAfterDelete` covers the sequential case of a save after a delete.
- Rendering, toast styling, icons and navigation. The toast's title and description are kept. `Dashboard.StockBadge` models the badge colour, not its styling.
- The pages `Configuracoes`, `ConfiguracoesPage` and `Index`, and the layout components `AppLayout` and `Sidebar`. They hold no synchronisation logic.
- Prices are exact decimals, not IEEE doubles, and the stock value is an exact real. Rounding and `toLocaleString` formatting are not modelled.
- ClientesPage.HandleSubmit, FornecedoresPage.HandleSubmit and ProdutosPage.HandleSubmit: the browser checks the form before `handleSubmit` runs (`required` on the mandatory text fields, and `type="number"` with `min="0"` on prices and stock). The handlers hold no such check and are modelled on every draft, so an empty name or a negative price reaches the service in the model. The gate is stated separately as each page's `Submittable` predicate, and the `Gated…` lemmas give what it guarantees. The `step="0.01"` limit on prices, and the browser's rejection of a fractional stock, are not modelled.
- Numerals.TrimStart: skips space, tab, line feed and carriage return only, not the wider set of white space JavaScript's parsers skip.
- Numerals.ParseFloat: reads sign, digits and a '.' fraction; it does not read exponents (`1e3`), `Infinity` or the wider set of JavaScript white-space characters.
- Numerals.ParseInt: reads sign and digits in base 10; it does not read a `0x` hexadecimal prefix or the wider set of JavaScript white-space characters.
- Numerals.ShowDecimal: writes plain positional notation; the exponent form `toString()` uses for very large or very small numbers is not modelled.
- Text.Lower: lower-cases ASCII letters only; Unicode case mapping (accented capitals such as 'Á') is not modelled.
- Base.Describe: an error that is not an `Error` instance has no message; the model treats the service's "no single row" and "duplicate key" responses that way, so they show 'Tente novamente'.
- Scenarios.SupplierDeletedUnderProducts and UseFornecedores.Delete: the database schema is not part of this model, so the foreign key from `produtos.fornecedor_id` to `fornecedores.id` and its ON DELETE action are not modelled. A RESTRICT or NO ACTION refusal is covered as a service error (the delete then fails and changes nothing); a SET NULL or CASCADE change to the products table is not modelled, so the lemma speaks of products that still refer to the deleted supplier.
- Gateway.Insert: the service assigns identifiers; the model takes the new identifier as an input and rejects one already in use instead of assuming it is fresh.

=== FILE: base.dfy ===
/** Shared vocabulary: optional values, identifiers, and the failures that a
    call into the synchronisation layer can end in. */
module Base {

  /** A value that may be absent (`null` / `undefined` on the other side). */
  datatype Option<+T> = None | Some(value: T)

  /** Row and user identifiers as issued by the data service. They are never
      empty; the pages use the empty string to mean "no identifier". */
  type Id = s: string | |s| > 0 witness "0"

  /** An error that the remote gateway reports. `message` is None when the
      thrown value is not an `Error` instance, so it has no message a page
      could show. */
  datatype Fault = Fault(message: Option<string>)

  /** How a call into the synchronisation layer fails. */
  datatype Failure =
    | Unauthenticated                  // create was called with no signed-in user
    | Remote(message: Option<string>)  // the gateway reported a fault
    | NoSingleRow                      // `.single()` found no row to return
    | DuplicateKey                     // the store refused an identifier that is already in use

  datatype Result<+T> = Ok(value: T) | Err(failure: Failure)

  /** The message of the error raised when no user is signed in. */
  const UnauthenticatedMessage: string := "Usuário não autenticado"

  /** The description a page shows when the error carries no message. */
  const FallbackMessage: string := "Tente novamente"

  /** The description a page puts in its error notice:
      `error instanceof Error ? error.message : 'Tente novamente'`. */
  function Describe(f: Failure): (d: string)
    ensures f.Unauthenticated? ==> d == UnauthenticatedMessage
    ensures f.Remote? && f.message.Some? ==> d == f.message.value
    ensures (f.Remote? && f.message.None?) || f.NoSingleRow? || f.DuplicateKey? ==> d == FallbackMessage
  {
    match f
    case Unauthenticated => UnauthenticatedMessage
    case Remote(Some(m)) => m
    case Remote(None) => FallbackMessage
    case NoSingleRow => FallbackMessage
    case DuplicateKey => FallbackMessage
  }

  /** `s || ''` for a nullable text column. */
  function OrEmpty(s: Option<string>): (r: string)
    ensures s.Some? ==> r == s.value
    ensures s.None? ==> r == ""
  {
    if s.Some? then s.value else ""
  }
}

=== FILE: clientes_page.dfy ===
/** The customers page: its form fields, the reconciliation between a
    stored row and the form, the submit and delete handlers, and the search
    filter over the listed rows. */
module ClientesPage {
  import opened Base
  import opened Rows
  import opened Text
  import opened Search
  import opened Gateway
  import opened QueryCache
  import opened Sync
  import opened Forms
  import UseClientes

  /** The form's text fields; an empty field is the empty string. */
  datatype Draft = Draft(
    nome: string,
    cpfCnpj: string,
    email: string,
    telefone: string,
    enderecoRua: string,
    enderecoNumero: string,
    enderecoCidade: string,
    enderecoEstado: string,
    enderecoCep: string)

  const Blank: Draft := Draft("", "", "", "", "", "", "", "", "")

  type State = Form<Draft, Cliente>

  const Created: string := "Cliente criado com sucesso!"
  const Updated: string := "Cliente atualizado com sucesso!"
  const SaveFailed: string := "Erro ao salvar cliente"
  const Deleted: string := "Cliente excluído com sucesso!"
  const DeleteFailed: string := "Erro ao excluir cliente"

  /** The fields shown when a row is opened for editing: a null column shows as empty. */
  function Seed(c: Cliente): (d: Draft)
    ensures d.nome == c.fields.nome && d.cpfCnpj == c.fields.cpfCnpj
    ensures d.email == OrEmpty(c.fields.email) && d.telefone == OrEmpty(c.fields.telefone)
    ensures d.enderecoRua == OrEmpty(c.fields.enderecoRua)
    ensures d.enderecoNumero == OrEmpty(c.fields.enderecoNumero)
    ensures d.enderecoCidade == OrEmpty(c.fields.enderecoCidade)
    ensures d.enderecoEstado == OrEmpty(c.fields.enderecoEstado)
    ensures d.enderecoCep == OrEmpty(c.fields.enderecoCep)
  {
    var f := c.fields;
    Draft(f.nome, f.cpfCnpj, OrEmpty(f.email), OrEmpty(f.telefone),
      OrEmpty(f.enderecoRua), OrEmpty(f.enderecoNumero), OrEmpty(f.enderecoCidade),
      OrEmpty(f.enderecoEstado), OrEmpty(f.enderecoCep))
  }

  /** The columns a submit sends: every field as typed, an empty one as the empty string (never null). */
  function Payload(d: Draft): (f: ClienteFields)
    ensures f.nome == d.nome && f.cpfCnpj == d.cpfCnpj
    ensures f.email == Some(d.email) && f.telefone == Some(d.telefone)
    ensures f.enderecoRua == Some(d.enderecoRua) && f.enderecoNumero == Some(d.enderecoNumero)
    ensures f.enderecoCidade == Some(d.enderecoCidade) && f.enderecoEstado == Some(d.enderecoEstado)
    ensures f.enderecoCep == Some(d.enderecoCep)
  {
    ClienteFields(d.nome, d.cpfCnpj, Some(d.email), Some(d.telefone),
      Some(d.enderecoRua), Some(d.enderecoNumero), Some(d.enderecoCidade),
      Some(d.enderecoEstado), Some(d.enderecoCep))
  }

  /** No optional column is null. */
  predicate NoNulls(f: ClienteFields)
  {
    && f.email.Some? && f.telefone.Some? && f.enderecoRua.Some? && f.enderecoNumero.Some?
    && f.enderecoCidade.Some? && f.enderecoEstado.Some? && f.enderecoCep.Some?
  }

  /** A row saved from a form and opened again shows exactly that form. */
  lemma SeedPayload(d: Draft, id: Id, user: Id, now: nat)
    ensures Seed(Row(id, user, now, Payload(d))) == d
  {
  }

  /** Opening a row and saving it without changes writes back the same
      columns exactly when none of its optional columns is null; a null one
      comes back as the empty string. */
  lemma UnchangedEdit(c: Cliente)
    ensures Payload(Seed(c)) == c.fields <==> NoNulls(c.fields)
    ensures c.fields.email.None? ==> Payload(Seed(c)).email == Some("")
  {
  }

  /** `openDialog(cliente?)`. */
  function OpenDialog(f: State, c: Option<Cliente>): (r: State)
    ensures r.open && r.editing == c
    ensures c.None? ==> r.draft == Blank
    ensures c.Some? ==> r.draft == Seed(c.value)
  {
    Open(f, Blank, c, Seed)
  }

  /** What a submit did: the dialog afterwards, the state, and the toast. */
  datatype Outcome = Outcome(form: State, app: App, notice: Notice)

  /** `handleSubmit`: updates the row being edited with every field of the
      form, or creates a row from the form; a success closes and resets the
      dialog, a failure keeps it open with its fields and reports why. */
  function HandleSubmit(f: State, app: App, user: Option<Id>, freshId: Id, now: nat, fault: Option<Fault>)
    : (o: Outcome)
    ensures o.notice.Success? <==>
      if f.editing.Some? then fault.None? && HasId(app.store.clientes, f.editing.value.id)
      else user.Some? && fault.None? && !HasId(app.store.clientes, freshId)
    ensures o.notice.Success? ==>
      && o.form == Form(Blank, None, false)
      && o.notice.title == (if f.editing.Some? then Updated else Created)
      && o.app.cache == Invalidate(app.cache, ClientesKey)
    ensures o.notice.Failure? ==> o.form == f && o.app == app && o.notice.title == SaveFailed
    ensures f.editing.None? && user.None? ==> o.notice == Failure(SaveFailed, UnauthenticatedMessage)
    ensures f.editing.None? && o.notice.Success? ==>
      o.app.store == app.store.(clientes := app.store.clientes + [Row(freshId, user.value, now, Payload(f.draft))])
    ensures f.editing.Some? && o.notice.Success? ==>
      && o.app.store == app.store.(clientes := o.app.store.clientes)
      && |o.app.store.clientes| == |app.store.clientes|
      && forall i :: 0 <= i < |app.store.clientes| ==>
           o.app.store.clientes[i] == if app.store.clientes[i].id == f.editing.value.id
             then app.store.clientes[i].(fields := Payload(f.draft))
             else app.store.clientes[i]
    ensures (f.editing.Some? || user.Some?) && fault.Some? ==>
      o.notice == Failure(SaveFailed, Describe(Remote(fault.value.message)))
    ensures f.editing.Some? && fault.None? && !HasId(app.store.clientes, f.editing.value.id) ==>
      o.notice == Failure(SaveFailed, FallbackMessage)
    ensures f.editing.None? && user.Some? && fault.None? && HasId(app.store.clientes, freshId) ==>
      o.notice == Failure(SaveFailed, FallbackMessage)
    ensures Consistent(app.store) ==> Consistent(o.app.store)
  {
    var s := if f.editing.Some?
      then UseClientes.Update(app, f.editing.value.id, ClienteColumns(Payload(f.draft)), fault)
      else UseClientes.Create(app, user, Payload(f.draft), freshId, now, fault);
    var (form, notice) := Conclude(f, Blank, s.result, if f.editing.Some? then Updated else Created, SaveFailed);
    Outcome(form, s.app, notice)
  }

  /** The browser's check before `handleSubmit` runs: the fields marked
      `required` (nome and CPF/CNPJ) are not empty. */
  predicate Submittable(d: Draft)
  {
    d.nome != "" && d.cpfCnpj != ""
  }

  /** Every stored customer has its mandatory columns filled. */
  predicate MandatoryFilled(t: seq<Cliente>)
  {
    forall k :: 0 <= k < |t| ==> t[k].fields.nome != "" && t[k].fields.cpfCnpj != ""
  }

  /** A save that passed the browser's check never stores a customer with an
      empty mandatory column. */
  lemma GatedSubmitKeepsMandatory(f: State, app: App, user: Option<Id>, freshId: Id, now: nat, fault: Option<Fault>)
    requires Submittable(f.draft) && MandatoryFilled(app.store.clientes)
    ensures MandatoryFilled(HandleSubmit(f, app, user, freshId, now, fault).app.store.clientes)
  {
    var o := HandleSubmit(f, app, user, freshId, now, fault);
    var before, after := app.store.clientes, o.app.store.clientes;
    forall k | 0 <= k < |after| ensures after[k].fields.nome != "" && after[k].fields.cpfCnpj != "" {
      if o.notice.Success? && f.editing.None? && k < |before| {
        assert after[k] == before[k];
      }
    }
  }

  /** `handleDelete`: nothing happens unless the user confirms; a confirmed
      delete removes the row and reports success, or reports the failure. */
  function HandleDelete(app: App, id: Id, confirmed: bool, fault: Option<Fault>): (r: (App, Option<Notice>))
    ensures !confirmed ==> r == (app, None)
    ensures confirmed && fault.Some? ==>
      r == (app, Some(Failure(DeleteFailed, Describe(Remote(fault.value.message)))))
    ensures confirmed && fault.None? ==>
      && r.1 == Some(Success(Deleted))
      && !HasId(r.0.store.clientes, id)
      && (forall k :: 0 <= k < |app.store.clientes| && app.store.clientes[k].id != id ==>
            app.store.clientes[k] in r.0.store.clientes)
      && (forall k :: 0 <= k < |r.0.store.clientes| ==> r.0.store.clientes[k] in app.store.clientes)
      && r.0.store == app.store.(clientes := r.0.store.clientes)
      && r.0.cache == Invalidate(app.cache, ClientesKey)
    ensures Consistent(app.store) ==> Consistent(r.0.store)
  {
    if !confirmed then (app, None)
    else
      var s := UseClientes.Delete(app, id, fault);
      (s.app, Some(Announce(s.result, Deleted, DeleteFailed)))
  }

  /** The search test: the name contains the search text in any letter
      case, or the CPF/CNPJ contains it as typed. */
  predicate Matches(c: Cliente, search: string)
  {
    Contains(Lower(c.fields.nome), Lower(search)) || Contains(c.fields.cpfCnpj, search)
  }

  /** `filteredClientes`: nothing while the list has not loaded. */
  function Filtered(data: Option<seq<Cliente>>, search: string): (r: Option<seq<Cliente>>)
    ensures r.Some? <==> data.Some?
    ensures r.Some? ==> forall k :: 0 <= k < |r.value| ==> r.value[k] in data.value && Matches(r.value[k], search)
    ensures r.Some? ==> forall k :: 0 <= k < |data.value| && Matches(data.value[k], search) ==> data.value[k] in r.value
  {
    match data
    case None => None
    case Some(xs) => Some(Filter(xs, c => Matches(c, search)))
  }

  /** An empty search lists every row, in order. */
  lemma EmptySearchListsAll(data: Option<seq<Cliente>>)
    ensures Filtered(data, "") == data
  {
    if data.Some? {
      forall k | 0 <= k < |data.value| ensures Matches(data.value[k], "") {
        ContainsEmpty(data.value[k].fields.cpfCnpj);
      }
      FilterKeepsAll(data.value, c => Matches(c, ""));
    }
  }

  /** Searching for a row's name, typed in any letter case, lists that row. */
  lemma SearchByNameFinds(xs: seq<Cliente>, k: nat, typed: string)
    requires k < |xs| && Lower(typed) == Lower(xs[k].fields.nome)
    ensures xs[k] in Filtered(Some(xs), typed).value
  {
    ContainsSelf(Lower(xs[k].fields.nome));
  }
}

=== FILE: dashboard.dfy ===
/** The figures and panels the dashboard derives from the three cached
    lists: the counts, the stock value, the latest customers and the
    products running low. */
module Dashboard {
  import opened Base
  import opened Rows
  import opened Numerals
  import opened Ordering
  import opened Search

  /** `data?.length ?? 0`. */
  function Total<T>(data: Option<seq<T>>): (n: nat)
    ensures data.None? ==> n == 0
    ensures data.Some? ==> n == |data.value|
  {
    if data.Some? then |data.value| else 0
  }

  /** What one product adds to the stock value: sale price times units in stock. */
  function Worth(p: Produto): real
  {
    Value(p.fields.precoVenda) * (p.fields.estoqueAtual as real)
  }

  /** The stock value of a list of products, summed from the left as `reduce` does. */
  function StockSum(ps: seq<Produto>): real
    decreases |ps|
  {
    if |ps| == 0 then 0.0 else StockSum(ps[..|ps| - 1]) + Worth(ps[|ps| - 1])
  }

  /** The stock value of two lists together is the sum of their values. */
  lemma {:induction false} StockSumAppend(a: seq<Produto>, b: seq<Produto>)
    ensures StockSum(a + b) == StockSum(a) + StockSum(b)
    decreases |b|
  {
    if |b| == 0 {
      assert a + b == a;
    } else {
      var front := b[..|b| - 1];
      assert (a + b)[..|a + b| - 1] == a + front;
      assert (a + b)[|a + b| - 1] == b[|b| - 1];
      StockSumAppend(a, front);
    }
  }

  /** Taking one product out of a list takes its worth out of the list's value. */
  lemma {:induction false} StockSumRemove(b: seq<Produto>, j: nat)
    requires j < |b|
    ensures StockSum(b) == StockSum(b[..j] + b[j + 1..]) + Worth(b[j])
    decreases |b|
  {
    var init := b[..|b| - 1];
    if j == |b| - 1 {
      assert b[..j] + b[j + 1..] == init;
    } else {
      var last := b[|b| - 1];
      var rest := b[..j] + b[j + 1..];
      StockSumRemove(init, j);
      assert init[j] == b[j];
      assert rest[..|rest| - 1] == init[..j] + init[j + 1..];
      assert rest[|rest| - 1] == last;
    }
  }

  /** Taking one element out of a list takes it out of the list's multiset. */
  lemma MultisetRemove<T>(b: seq<T>, j: nat)
    requires j < |b|
    ensures multiset(b[..j] + b[j + 1..]) == multiset(b) - multiset{b[j]}
  {
    assert b == b[..j] + [b[j]] + b[j + 1..];
  }

  /** The stock value does not depend on the order the products are listed in. */
  lemma {:induction false} StockSumPermutation(a: seq<Produto>, b: seq<Produto>)
    requires multiset(a) == multiset(b)
    ensures StockSum(a) == StockSum(b)
    decreases |a|
  {
    if |a| > 0 {
      var x := a[|a| - 1];
      assert x in multiset(b);
      var j :| 0 <= j < |b| && b[j] == x;
      MultisetRemove(a, |a| - 1);
      MultisetRemove(b, j);
      assert a[..|a| - 1] + a[|a|..] == a[..|a| - 1];
      StockSumPermutation(a[..|a| - 1], b[..j] + b[j + 1..]);
      StockSumRemove(b, j);
    }
  }

  /** With no negative price or stock, the stock value is not negative. */
  lemma {:induction false} StockSumNonNegative(ps: seq<Produto>)
    requires forall k :: 0 <= k < |ps| ==> Value(ps[k].fields.precoVenda) >= 0.0 && ps[k].fields.estoqueAtual >= 0
    ensures StockSum(ps) >= 0.0
    decreases |ps|
  {
    if |ps| > 0 {
      StockSumNonNegative(ps[..|ps| - 1]);
    }
  }

  /** `valorEstoque`: the listed products' stock value, 0 while nothing is loaded. */
  method ValorEstoque(data: Option<seq<ProdutoView>>) returns (total: real)
    ensures data.None? ==> total == 0.0
    ensures data.Some? ==> total == StockSum(RowsOf(data.value))
  {
    total := 0.0;
    if data.Some? {
      var xs := data.value;
      var i := 0;
      while i < |xs|
        invariant 0 <= i <= |xs|
        invariant total == StockSum(RowsOf(xs[..i]))
      {
        assert RowsOf(xs[..i + 1]) == RowsOf(xs[..i]) + [xs[i].row];
        total := total + Worth(xs[i].row);
        i := i + 1;
      }
      assert xs[..i] == xs;
    }
  }

  /** The state of a dashboard panel. */
  datatype Panel<T> = Loading | Listed(items: seq<T>) | Empty

  /** At most this many rows appear in a panel. */
  const PanelSize: nat := 5

  /** "Últimos Clientes": the first five listed customers, or the empty message. */
  function RecentClientes(loading: bool, data: Option<seq<Cliente>>): (p: Panel<Cliente>)
    ensures loading <==> p.Loading?
    ensures p.Empty? <==> !loading && (data.None? || |data.value| == 0)
    ensures p.Listed? ==> (
      && data.Some? && 1 <= |p.items| <= PanelSize && |p.items| <= |data.value|
      && p.items == data.value[..|p.items|])
    ensures p.Listed? ==> |p.items| == PanelSize || p.items == data.value
  {
    if loading then Loading
    else if data.Some? && |data.value| > 0 then Listed(Take(data.value, PanelSize))
    else Empty
  }

  /** Listed newest first, the customers panel shows the newest ones: no
      customer left out is newer than one shown. */
  lemma RecentAreNewest(data: seq<Cliente>)
    requires NewestFirst(data) && |data| > 0
    ensures var p := RecentClientes(false, Some(data));
      forall i, j :: 0 <= i < |p.items| <= j < |data| ==> p.items[i].createdAt >= data[j].createdAt
  {
  }

  /** Below this stock a product counts as running low. */
  const LowStockBelow: int := 10

  predicate IsLow(v: ProdutoView)
  {
    v.row.fields.estoqueAtual < LowStockBelow
  }

  /** "Produtos com Baixo Estoque": the first five listed products that run
      low, or the all-stocked message. */
  function LowStock(loading: bool, data: Option<seq<ProdutoView>>): (p: Panel<ProdutoView>)
    ensures loading <==> p.Loading?
    ensures p.Empty? <==> !loading && (data.None? || forall k :: 0 <= k < |data.value| ==> !IsLow(data.value[k]))
    ensures p.Listed? ==> 1 <= |p.items| <= PanelSize
    ensures p.Listed? ==> forall k :: 0 <= k < |p.items| ==> IsLow(p.items[k]) && p.items[k] in data.value
    ensures p.Listed? ==> |p.items| == PanelSize || p.items == Filter(data.value, IsLow)
  {
    if loading then Loading
    else if data.Some? && |Filter(data.value, IsLow)| > 0 then
      var low := Filter(data.value, IsLow);
      assert exists k :: 0 <= k < |data.value| && IsLow(data.value[k]) by {
        var k :| 0 <= k < |data.value| && data.value[k] == low[0];
      }
      Listed(Take(low, PanelSize))
    else Empty
  }

  /** The low-stock panel lists the low products in list order: the shown
      ones are the first of them. */
  lemma LowStockKeepsOrder(data: seq<ProdutoView>)
    requires LowStock(false, Some(data)).Listed?
    ensures var items := LowStock(false, Some(data)).items;
      items == Filter(data, IsLow)[..|items|]
  {
  }

  /** How a low-stock quantity is coloured. */
  datatype Badge = Destructive | Warning

  /** Out of stock shows as destructive, any other low quantity as a warning. */
  function StockBadge(v: ProdutoView): (b: Badge)
    ensures b.Destructive? <==> v.row.fields.estoqueAtual == 0
  {
    if v.row.fields.estoqueAtual == 0 then Destructive else Warning
  }

  /** Every product in the low-stock panel that shows a warning badge still
      has units, fewer than ten, or a negative count. */
  lemma WarningBadgesAreLowButStocked(data: seq<ProdutoView>)
    ensures var p := LowStock(false, Some(data));
      p.Listed? ==> forall k :: 0 <= k < |p.items| && StockBadge(p.items[k]).Warning? ==>
        p.items[k].row.fields.estoqueAtual != 0 && p.items[k].row.fields.estoqueAtual < LowStockBelow
  {
  }
}

=== FILE: forms.dfy ===
/** The dialog state every resource page keeps (form fields, the row being
    edited, whether the dialog is open) and the toast it shows after a save
    or a delete. */
module Forms {
  import opened Base

  /** The dialog of a page: `draft` holds the text fields, `editing` the row
      being edited (none when the dialog creates a row). */
  datatype Form<D, R> = Form(draft: D, editing: Option<R>, open: bool)

  /** A toast: a success title, or an error title with its description. */
  datatype Notice = Success(title: string) | Failure(title: string, description: string)

  /** `resetForm()`: blank fields and nothing being edited; the dialog stays as it was. */
  function Reset<D, R>(f: Form<D, R>, blank: D): (r: Form<D, R>)
    ensures r.draft == blank && r.editing.None? && r.open == f.open
  {
    Form(blank, None, f.open)
  }

  /** `openDialog(row?)`: with a row, the fields are seeded from it and it
      becomes the row being edited; without one, the form is reset. Either
      way the dialog opens. */
  function Open<D, R>(f: Form<D, R>, blank: D, row: Option<R>, seed: R -> D): (r: Form<D, R>)
    ensures r.open
    ensures row.None? ==> r.draft == blank && r.editing.None?
    ensures row.Some? ==> r.draft == seed(row.value) && r.editing == row
  {
    match row
    case None => Reset(f, blank).(open := true)
    case Some(x) => Form(seed(x), Some(x), true)
  }

  /** The end of `handleSubmit`: a success closes the dialog and resets the
      form; a failure keeps the dialog and its fields as they were and shows
      the error's description. */
  function Conclude<D, R, T>(f: Form<D, R>, blank: D, result: Result<T>, saved: string, failed: string)
    : (r: (Form<D, R>, Notice))
    ensures result.Ok? ==> r.0 == Form(blank, None, false) && r.1 == Success(saved)
    ensures result.Err? ==> r.0 == f && r.1 == Failure(failed, Describe(result.failure))
  {
    match result
    case Ok(_) => (Form(blank, None, false), Success(saved))
    case Err(e) => (f, Failure(failed, Describe(e)))
  }

  /** The toast after a delete. */
  function Announce<T>(result: Result<T>, done: string, failed: string): (n: Notice)
    ensures result.Ok? <==> n.Success?
    ensures n.title == if result.Ok? then done else failed
    ensures result.Err? ==> n.description == Describe(result.failure)
  {
    if result.Ok? then Success(done) else Failure(failed, Describe(result.failure))
  }
}

=== FILE: fornecedores_page.dfy ===
/** The suppliers page: its form fields, the reconciliation between a
    stored row and the form, the submit and delete handlers, and the search
    filter over the listed rows. */
module FornecedoresPage {
  import opened Base
  import opened Rows
  import opened Text
  import opened Search
  import opened Gateway
  import opened QueryCache
  import opened Sync
  import opened Forms
  import UseFornecedores

  /** The form's text fields; an empty field is the empty string. */
  datatype Draft = Draft(
    razaoSocial: string,
    cnpj: string,
    categoria: string,
    contatoNome: string,
    contatoEmail: string,
    contatoTelefone: string)

  const Blank: Draft := Draft("", "", "", "", "", "")

  type State = Form<Draft, Fornecedor>

  const Created: string := "Fornecedor criado com sucesso!"
  const Updated: string := "Fornecedor atualizado com sucesso!"
  const SaveFailed: string := "Erro ao salvar fornecedor"
  const Deleted: string := "Fornecedor excluído com sucesso!"
  const DeleteFailed: string := "Erro ao excluir fornecedor"

  /** The fields shown when a row is opened for editing: a null column shows as empty. */
  function Seed(c: Fornecedor): (d: Draft)
    ensures d.razaoSocial == c.fields.razaoSocial && d.cnpj == c.fields.cnpj
    ensures d.categoria == OrEmpty(c.fields.categoria) && d.contatoNome == OrEmpty(c.fields.contatoNome)
    ensures d.contatoEmail == OrEmpty(c.fields.contatoEmail)
    ensures d.contatoTelefone == OrEmpty(c.fields.contatoTelefone)
  {
    var f := c.fields;
    Draft(f.razaoSocial, f.cnpj, OrEmpty(f.categoria), OrEmpty(f.contatoNome),
      OrEmpty(f.contatoEmail), OrEmpty(f.contatoTelefone))
  }

  /** The columns a submit sends: every field as typed, an empty one as the empty string (never null). */
  function Payload(d: Draft): (f: FornecedorFields)
    ensures f.razaoSocial == d.razaoSocial && f.cnpj == d.cnpj
    ensures f.categoria == Some(d.categoria) && f.contatoNome == Some(d.contatoNome)
    ensures f.contatoEmail == Some(d.contatoEmail) && f.contatoTelefone == Some(d.contatoTelefone)
  {
    FornecedorFields(d.razaoSocial, d.cnpj, Some(d.categoria), Some(d.contatoNome),
      Some(d.contatoEmail), Some(d.contatoTelefone))
  }

  /** No optional column is null. */
  predicate NoNulls(f: FornecedorFields)
  {
    && f.categoria.Some? && f.contatoNome.Some? && f.contatoEmail.Some? && f.contatoTelefone.Some?
  }

  /** A row saved from a form and opened again shows exactly that form. */
  lemma SeedPayload(d: Draft, id: Id, user: Id, now: nat)
    ensures Seed(Row(id, user, now, Payload(d))) == d
  {
  }

  /** Opening a row and saving it without changes writes back the same
      columns exactly when none of its optional columns is null; a null one
      comes back as the empty string. */
  lemma UnchangedEdit(c: Fornecedor)
    ensures Payload(Seed(c)) == c.fields <==> NoNulls(c.fields)
    ensures c.fields.categoria.None? ==> Payload(Seed(c)).categoria == Some("")
  {
  }

  /** `openDialog(fornecedor?)`. */
  function OpenDialog(f: State, c: Option<Fornecedor>): (r: State)
    ensures r.open && r.editing == c
    ensures c.None? ==> r.draft == Blank
    ensures c.Some? ==> r.draft == Seed(c.value)
  {
    Open(f, Blank, c, Seed)
  }

  /** What a submit did: the dialog afterwards, the state, and the toast. */
  datatype Outcome = Outcome(form: State, app: App, notice: Notice)

  /** `handleSubmit`: updates the row being edited with every field of the
      form, or creates a row from the form; a success closes and resets the
      dialog, a failure keeps it open with its fields and reports why. */
  function HandleSubmit(f: State, app: App, user: Option<Id>, freshId: Id, now: nat, fault: Option<Fault>)
    : (o: Outcome)
    ensures o.notice.Success? <==>
      if f.editing.Some? then fault.None? && HasId(app.store.fornecedores, f.editing.value.id)
      else user.Some? && fault.None? && !HasId(app.store.fornecedores, freshId)
    ensures o.notice.Success? ==>
      && o.form == Form(Blank, None, false)
      && o.notice.title == (if f.editing.Some? then Updated else Created)
      && o.app.cache == Invalidate(app.cache, FornecedoresKey)
    ensures o.notice.Failure? ==> o.form == f && o.app == app && o.notice.title == SaveFailed
    ensures f.editing.None? && user.None? ==> o.notice == Failure(SaveFailed, UnauthenticatedMessage)
    ensures f.editing.None? && o.notice.Success? ==>
      o.app.store == app.store.(fornecedores := app.store.fornecedores + [Row(freshId, user.value, now, Payload(f.draft))])
    ensures f.editing.Some? && o.notice.Success? ==>
      && o.app.store == app.store.(fornecedores := o.app.store.fornecedores)
      && |o.app.store.fornecedores| == |app.store.fornecedores|
      && forall i :: 0 <= i < |app.store.fornecedores| ==>
           o.app.store.fornecedores[i] == if app.store.fornecedores[i].id == f.editing.value.id
             then app.store.fornecedores[i].(fields := Payload(f.draft))
             else app.store.fornecedores[i]
    ensures (f.editing.Some? || user.Some?) && fault.Some? ==>
      o.notice == Failure(SaveFailed, Describe(Remote(fault.value.message)))
    ensures f.editing.Some? && fault.None? && !HasId(app.store.fornecedores, f.editing.value.id) ==>
      o.notice == Failure(SaveFailed, FallbackMessage)
    ensures f.editing.None? && user.Some? && fault.None? && HasId(app.store.fornecedores, freshId) ==>
      o.notice == Failure(SaveFailed, FallbackMessage)
    ensures Consistent(app.store) ==> Consistent(o.app.store)
  {
    var s := if f.editing.Some?
      then UseFornecedores.Update(app, f.editing.value.id, FornecedorColumns(Payload(f.draft)), fault)
      else UseFornecedores.Create(app, user, Payload(f.draft), freshId, now, fault);
    var (form, notice) := Conclude(f, Blank, s.result, if f.editing.Some? then Updated else Created, SaveFailed);
    Outcome(form, s.app, notice)
  }

  /** The browser's check before `handleSubmit` runs: the fields marked
      `required` (company name and CNPJ) are not empty. */
  predicate Submittable(d: Draft)
  {
    d.razaoSocial != "" && d.cnpj != ""
  }

  /** Every stored supplier has its mandatory columns filled. */
  predicate MandatoryFilled(t: seq<Fornecedor>)
  {
    forall k :: 0 <= k < |t| ==> t[k].fields.razaoSocial != "" && t[k].fields.cnpj != ""
  }

  /** A save that passed the browser's check never stores a supplier with an
      empty mandatory column. */
  lemma GatedSubmitKeepsMandatory(f: State, app: App, user: Option<Id>, freshId: Id, now: nat, fault: Option<Fault>)
    requires Submittable(f.draft) && MandatoryFilled(app.store.fornecedores)
    ensures MandatoryFilled(HandleSubmit(f, app, user, freshId, now, fault).app.store.fornecedores)
  {
    var o := HandleSubmit(f, app, user, freshId, now, fault);
    var before, after := app.store.fornecedores, o.app.store.fornecedores;
    forall k | 0 <= k < |after| ensures after[k].fields.razaoSocial != "" && after[k].fields.cnpj != "" {
      if o.notice.Success? && f.editing.None? && k < |before| {
        assert after[k] == before[k];
      }
    }
  }

  /** `handleDelete`: nothing happens unless the user confirms; a confirmed
      delete removes the row and reports success, or reports the failure. */
  function HandleDelete(app: App, id: Id, confirmed: bool, fault: Option<Fault>): (r: (App, Option<Notice>))
    ensures !confirmed ==> r == (app, None)
    ensures confirmed && fault.Some? ==>
      r == (app, Some(Failure(DeleteFailed, Describe(Remote(fault.value.message)))))
    ensures confirmed && fault.None? ==>
      && r.1 == Some(Success(Deleted))
      && !HasId(r.0.store.fornecedores, id)
      && (forall k :: 0 <= k < |app.store.fornecedores| && app.store.fornecedores[k].id != id ==>
            app.store.fornecedores[k] in r.0.store.fornecedores)
      && (forall k :: 0 <= k < |r.0.store.fornecedores| ==> r.0.store.fornecedores[k] in app.store.fornecedores)
      && r.0.store == app.store.(fornecedores := r.0.store.fornecedores)
      && r.0.cache == Invalidate(app.cache, FornecedoresKey)
    ensures Consistent(app.store) ==> Consistent(r.0.store)
  {
    if !confirmed then (app, None)
    else
      var s := UseFornecedores.Delete(app, id, fault);
      (s.app, Some(Announce(s.result, Deleted, DeleteFailed)))
  }

  /** The search test: the company name contains the search text in any
      letter case, or the CNPJ contains it as typed. */
  predicate Matches(c: Fornecedor, search: string)
  {
    Contains(Lower(c.fields.razaoSocial), Lower(search)) || Contains(c.fields.cnpj, search)
  }

  /** `filteredFornecedores`: nothing while the list has not loaded. */
  function Filtered(data: Option<seq<Fornecedor>>, search: string): (r: Option<seq<Fornecedor>>)
    ensures r.Some? <==> data.Some?
    ensures r.Some? ==> forall k :: 0 <= k < |r.value| ==> r.value[k] in data.value && Matches(r.value[k], search)
    ensures r.Some? ==> forall k :: 0 <= k < |data.value| && Matches(data.value[k], search) ==> data.value[k] in r.value
  {
    match data
    case None => None
    case Some(xs) => Some(Filter(xs, c => Matches(c, search)))
  }

  /** An empty search lists every row, in order. */
  lemma EmptySearchListsAll(data: Option<seq<Fornecedor>>)
    ensures Filtered(data, "") == data
  {
    if data.Some? {
      forall k | 0 <= k < |data.value| ensures Matches(data.value[k], "") {
        ContainsEmpty(data.value[k].fields.cnpj);
      }
      FilterKeepsAll(data.value, c => Matches(c, ""));
    }
  }

  /** Searching for a row's company name, typed in any letter case, lists that row. */
  lemma SearchByNameFinds(xs: seq<Fornecedor>, k: nat, typed: string)
    requires k < |xs| && Lower(typed) == Lower(xs[k].fields.razaoSocial)
    ensures xs[k] in Filtered(Some(xs), typed).value
  {
    ContainsSelf(Lower(xs[k].fields.razaoSocial));
  }
}

=== FILE: gateway.dfy ===
/** The remote data service as the hooks use it: per-table select, insert,
    update and delete with an equality filter on `id`, ordering by
    `created_at`, and the product-to-supplier join. Whether the service
    reports a fault is an input (`fault`), so every operation is described
    both when it succeeds and when it fails. */
module Gateway {
  import opened Base
  import opened Rows
  import opened Ordering

  /** The signed-in user's view of the three tables, each in storage order. */
  datatype Store = Store(clientes: seq<Cliente>, fornecedores: seq<Fornecedor>, produtos: seq<Produto>)

  /** Every table keeps its primary key. */
  predicate Consistent(s: Store)
  {
    UniqueIds(s.clientes) && UniqueIds(s.fornecedores) && UniqueIds(s.produtos)
  }

  /** What a write returns (`result`) and the table it leaves behind (`table`). */
  datatype Written<T, F> = Written(result: Result<T>, table: seq<Row<F>>)

  /** `select('*').order('created_at', { ascending: false })` on one table. */
  function Select<F>(t: seq<Row<F>>, fault: Option<Fault>): (r: Result<seq<Row<F>>>)
    ensures r.Err? <==> fault.Some?
    ensures fault.Some? ==> r == Err(Remote(fault.value.message))
    ensures r.Ok? ==> NewestFirst(r.value) && multiset(r.value) == multiset(t)
  {
    if fault.Some? then Err(Remote(fault.value.message)) else Ok(SortNewestFirst(t))
  }

  /** `insert(row).select().single()`: the store refuses an identifier that is already in use. */
  function Insert<F>(t: seq<Row<F>>, row: Row<F>, fault: Option<Fault>): (w: Written<Row<F>, F>)
    ensures fault.Some? ==> w == Written(Err(Remote(fault.value.message)), t)
    ensures fault.None? && HasId(t, row.id) ==> w == Written(Err(DuplicateKey), t)
    ensures w.result.Ok? <==> fault.None? && !HasId(t, row.id)
    ensures w.result.Ok? ==> w.result.value == row && w.table == t + [row]
  {
    if fault.Some? then Written(Err(Remote(fault.value.message)), t)
    else if HasId(t, row.id) then Written(Err(DuplicateKey), t)
    else Written(Ok(row), t + [row])
  }

  /** The first row with identifier `id`, if any. */
  function FindById<F>(t: seq<Row<F>>, id: Id): (r: Option<Row<F>>)
    ensures r.Some? <==> HasId(t, id)
    ensures r.Some? ==> r.value in t && r.value.id == id
  {
    if |t| == 0 then None
    else if t[0].id == id then Some(t[0])
    else
      var r := FindById(t[1..], id);
      assert HasId(t, id) ==> HasId(t[1..], id) by {
        if HasId(t, id) {
          var i :| 0 <= i < |t| && t[i].id == id;
          assert t[1..][i - 1] == t[i];
        }
      }
      assert HasId(t[1..], id) ==> HasId(t, id) by {
        if HasId(t[1..], id) {
          var i :| 0 <= i < |t[1..]| && t[1..][i].id == id;
          assert t[i + 1] == t[1..][i];
        }
      }
      r
  }

  /** In a table with unique identifiers, the row found is the one carrying that identifier. */
  lemma FindUnique<F>(t: seq<Row<F>>, k: nat)
    requires UniqueIds(t) && k < |t|
    ensures FindById(t, t[k].id) == Some(t[k])
  {
    var r := FindById(t, t[k].id);
    var i :| 0 <= i < |t| && t[i] == r.value;
    assert i == k;
  }

  /** The rows after `patch` has been applied to every row with identifier `id`. */
  function PatchWhere<F, P>(t: seq<Row<F>>, id: Id, patch: P, apply: (F, P) -> F): (r: seq<Row<F>>)
  {
    seq(|t|, i requires 0 <= i < |t| =>
      if t[i].id == id then t[i].(fields := apply(t[i].fields, patch)) else t[i])
  }

  /** `update(patch).eq('id', id).select().single()`: every matching row gets
      the patch and the updated row is returned; with no matching row
      `.single()` reports an error and nothing changed. */
  function Update<F, P>(t: seq<Row<F>>, id: Id, patch: P, apply: (F, P) -> F, fault: Option<Fault>)
    : (w: Written<Row<F>, F>)
    ensures fault.Some? ==> w == Written(Err(Remote(fault.value.message)), t)
    ensures fault.None? && !HasId(t, id) ==> w == Written(Err(NoSingleRow), t)
    ensures w.result.Ok? <==> fault.None? && HasId(t, id)
    ensures |w.table| == |t|
    ensures forall i :: 0 <= i < |t| && t[i].id != id ==> w.table[i] == t[i]
    ensures w.result.Ok? ==> forall i :: 0 <= i < |t| && t[i].id == id ==>
      w.table[i] == t[i].(fields := apply(t[i].fields, patch))
    ensures forall i :: 0 <= i < |t| ==>
      w.table[i].id == t[i].id && w.table[i].userId == t[i].userId && w.table[i].createdAt == t[i].createdAt
    ensures w.result.Ok? ==>
      var before := FindById(t, id).value;
      w.result.value == before.(fields := apply(before.fields, patch))
    ensures w.result.Ok? ==> w.result.value in w.table
  {
    if fault.Some? then Written(Err(Remote(fault.value.message)), t)
    else if !HasId(t, id) then Written(Err(NoSingleRow), t)
    else
      var before := FindById(t, id).value;
      var table := PatchWhere(t, id, patch, apply);
      assert before.(fields := apply(before.fields, patch)) in table by {
        var i :| 0 <= i < |t| && t[i] == before;
        assert table[i] == before.(fields := apply(before.fields, patch));
      }
      Written(Ok(before.(fields := apply(before.fields, patch))), table)
  }

  /** The rows of `t` whose identifier is not `id`, in their order. */
  function Without<F>(t: seq<Row<F>>, id: Id): (r: seq<Row<F>>)
    ensures !HasId(r, id)
    ensures forall k :: 0 <= k < |r| ==> r[k] in t
    ensures forall k :: 0 <= k < |t| && t[k].id != id ==> t[k] in r
    ensures !HasId(t, id) ==> r == t
  {
    if |t| == 0 then []
    else
      var rest := Without(t[1..], id);
      assert forall k :: 1 <= k < |t| ==> t[k] == t[1..][k - 1];
      assert !HasId(t, id) ==> !HasId(t[1..], id) by {
        if HasId(t[1..], id) {
          var i :| 0 <= i < |t[1..]| && t[1..][i].id == id;
          assert t[i + 1] == t[1..][i];
        }
      }
      if t[0].id == id then rest
      else
        assert !HasId([t[0]] + rest, id) by {
          forall i | 0 <= i < |[t[0]] + rest| ensures ([t[0]] + rest)[i].id != id {
            if i > 0 {
              assert ([t[0]] + rest)[i] == rest[i - 1];
            }
          }
        }
        assert !HasId(t, id) ==> t == [t[0]] + t[1..];
        [t[0]] + rest
  }

  /** `delete().eq('id', id)`: with no matching row the call still succeeds. */
  function Delete<F>(t: seq<Row<F>>, id: Id, fault: Option<Fault>): (w: Written<(), F>)
    ensures fault.Some? ==> w == Written(Err(Remote(fault.value.message)), t)
    ensures fault.None? ==> w.result.Ok? && w.table == Without(t, id)
  {
    if fault.Some? then Written(Err(Remote(fault.value.message)), t)
    else Written(Ok(()), Without(t, id))
  }

  /** The supplier a product refers to, as `fornecedor:fornecedores(id, razao_social)` resolves it. */
  function SupplierOf(fornecedores: seq<Fornecedor>, ref: Option<Id>): (r: Option<SupplierRef>)
    ensures r.Some? <==> ref.Some? && HasId(fornecedores, ref.value)
    ensures r.Some? ==> r.value.id == ref.value
    ensures r.Some? ==> exists k :: 0 <= k < |fornecedores| && fornecedores[k].id == ref.value
                               && fornecedores[k].fields.razaoSocial == r.value.razaoSocial
  {
    if ref.None? then None
    else
      match FindById(fornecedores, ref.value)
      case None => None
      case Some(f) => Some(SupplierRef(f.id, f.fields.razaoSocial))
  }

  /** Attaches to each product its supplier projection, keeping the order. */
  function JoinSuppliers(produtos: seq<Produto>, fornecedores: seq<Fornecedor>): (r: seq<ProdutoView>)
    ensures |r| == |produtos|
    ensures forall k :: 0 <= k < |r| ==>
      r[k].row == produtos[k] && r[k].fornecedor == SupplierOf(fornecedores, produtos[k].fields.fornecedorId)
  {
    seq(|produtos|, k requires 0 <= k < |produtos| =>
      ProdutoView(produtos[k], SupplierOf(fornecedores, produtos[k].fields.fornecedorId)))
  }

  /** The products query: `select('*, fornecedor:fornecedores(id, razao_social)')`
      ordered by `created_at` descending. */
  function SelectProdutos(s: Store, fault: Option<Fault>): (r: Result<seq<ProdutoView>>)
    ensures r.Err? <==> fault.Some?
    ensures fault.Some? ==> r == Err(Remote(fault.value.message))
    ensures r.Ok? ==> NewestFirst(RowsOf(r.value)) && multiset(RowsOf(r.value)) == multiset(s.produtos)
    ensures r.Ok? ==> forall k :: 0 <= k < |r.value| ==>
      r.value[k].fornecedor == SupplierOf(s.fornecedores, r.value[k].row.fields.fornecedorId)
  {
    match Select(s.produtos, fault)
    case Err(e) => Err(e)
    case Ok(rows) =>
      var views := JoinSuppliers(rows, s.fornecedores);
      assert RowsOf(views) == rows;
      Ok(views)
  }

  /** Appending a row whose identifier is not yet used keeps identifiers unique. */
  lemma AppendKeepsUniqueIds<F>(t: seq<Row<F>>, row: Row<F>)
    requires UniqueIds(t) && !HasId(t, row.id)
    ensures UniqueIds(t + [row])
  {
    forall i, j | 0 <= i < j < |t + [row]| ensures (t + [row])[i].id != (t + [row])[j].id {
      assert (t + [row])[i] == t[i];
    }
  }

  /** Removing rows keeps identifiers unique. */
  lemma {:induction false} WithoutKeepsUniqueIds<F>(t: seq<Row<F>>, id: Id)
    requires UniqueIds(t)
    ensures UniqueIds(Without(t, id))
    decreases |t|
  {
    if |t| > 0 {
      var tail := t[1..];
      TailKeepsUniqueIds(t);
      WithoutKeepsUniqueIds(tail, id);
      var rest := Without(tail, id);
      if t[0].id != id {
        assert !HasId(rest, t[0].id) by {
          forall k | 0 <= k < |rest| ensures rest[k].id != t[0].id {
            var j :| 0 <= j < |tail| && tail[j] == rest[k];
          }
        }
        ConsKeepsUniqueIds(t[0], rest);
      }
    }
  }

  /** Every write keeps the table's primary key. */
  lemma InsertKeepsUniqueIds<F>(t: seq<Row<F>>, row: Row<F>, fault: Option<Fault>)
    ensures UniqueIds(t) ==> UniqueIds(Insert(t, row, fault).table)
  {
    if UniqueIds(t) && Insert(t, row, fault).result.Ok? {
      AppendKeepsUniqueIds(t, row);
    }
  }

  lemma UpdateKeepsUniqueIds<F, P>(t: seq<Row<F>>, id: Id, patch: P, apply: (F, P) -> F, fault: Option<Fault>)
    ensures UniqueIds(t) ==> UniqueIds(Update(t, id, patch, apply, fault).table)
  {
  }

  lemma DeleteKeepsUniqueIds<F>(t: seq<Row<F>>, id: Id, fault: Option<Fault>)
    ensures UniqueIds(t) ==> UniqueIds(Delete(t, id, fault).table)
  {
    if UniqueIds(t) {
      WithoutKeepsUniqueIds(t, id);
    }
  }

  /** A row inserted into a table with unique identifiers is listed exactly once by the next select. */
  lemma {:induction false} InsertedListedOnce<F>(t: seq<Row<F>>, row: Row<F>, fault: Option<Fault>)
    requires UniqueIds(t)
    requires Insert(t, row, fault).result.Ok?
    ensures var listed := Select(Insert(t, row, fault).table, None).value;
      multiset(listed)[row] == 1 && UniqueIds(listed)
  {
    assert multiset(t)[row] == 0;
    AppendKeepsUniqueIds(t, row);
    SortKeepsUniqueIds(t + [row]);
  }

  /** After a delete, the next select lists no row with that identifier. */
  lemma DeletedNeverListed<F>(t: seq<Row<F>>, id: Id, fault: Option<Fault>)
    requires Delete(t, id, fault).result.Ok?
    ensures var listed := Select(Delete(t, id, fault).table, None).value;
      !HasId(listed, id)
  {
    var table := Delete(t, id, fault).table;
    var listed := Select(table, None).value;
    forall i | 0 <= i < |listed| ensures listed[i].id != id {
      var j :| 0 <= j < |table| && table[j] == listed[i];
    }
  }
}

=== FILE: numerals.dfy ===
/** Decimal numerals as the products form handles them: numbers are shown
    with `toString()` when a record seeds the form and read back with
    `parseInt` / `parseFloat` when the form is submitted. */
module Numerals {
  import opened Base

  function Pow10(n: nat): (p: nat)
    ensures p >= 1
  {
    if n == 0 then 1 else 10 * Pow10(n - 1)
  }

  predicate IsDigit(c: char)
  {
    '0' <= c <= '9'
  }

  predicate AllDigits(s: string)
  {
    forall i :: 0 <= i < |s| ==> IsDigit(s[i])
  }

  function DigitOf(c: char): nat
    requires IsDigit(c)
  {
    c as int - '0' as int
  }

  function CharOf(d: nat): (c: char)
    requires d < 10
    ensures IsDigit(c) && DigitOf(c) == d
  {
    ('0' as int + d) as char
  }

  /** The value of a run of decimal digits, most significant digit first. */
  function DigitsValue(s: string): nat
    requires AllDigits(s)
    decreases |s|
  {
    if |s| == 0 then 0 else DigitsValue(s[..|s| - 1]) * 10 + DigitOf(s[|s| - 1])
  }

  /** The shortest decimal numeral of `n` ("0" for zero). */
  function NatDigits(n: nat): (s: string)
    ensures |s| > 0 && AllDigits(s)
  {
    if n < 10 then [CharOf(n)] else NatDigits(n / 10) + [CharOf(n % 10)]
  }

  /** Reading back the numeral of `n` gives `n`. */
  lemma {:induction false} NatDigitsValue(n: nat)
    ensures DigitsValue(NatDigits(n)) == n
  {
    var s := NatDigits(n);
    if n < 10 {
      assert s[..|s| - 1] == [];
    } else {
      assert s[..|s| - 1] == NatDigits(n / 10);
      NatDigitsValue(n / 10);
    }
  }

  lemma AllDigitsAppend(a: string, b: string)
    requires AllDigits(a) && AllDigits(b)
    ensures AllDigits(a + b)
  {
  }

  /** The arithmetic of one step of `DigitsValueAppend`. */
  lemma ShiftStep(va: int, p: int, vb: int, d: int)
    ensures (va * p + vb) * 10 + d == va * (10 * p) + (vb * 10 + d)
  {
    calc {
      (va * p + vb) * 10 + d;
      (va * p) * 10 + vb * 10 + d;
      { assert (va * p) * 10 == va * (10 * p); }
      va * (10 * p) + (vb * 10 + d);
    }
  }

  /** Appending digits shifts the value of the front part left. */
  lemma {:induction false} DigitsValueAppend(a: string, b: string)
    requires AllDigits(a) && AllDigits(b)
    ensures AllDigits(a + b)
    ensures DigitsValue(a + b) == DigitsValue(a) * Pow10(|b|) + DigitsValue(b)
    decreases |b|
  {
    if |b| == 0 {
      assert a + b == a;
    } else {
      var b' := b[..|b| - 1];
      var d := DigitOf(b[|b| - 1]);
      assert (a + b)[..|a + b| - 1] == a + b';
      assert (a + b)[|a + b| - 1] == b[|b| - 1];
      assert DigitsValue(a + b) == DigitsValue(a + b') * 10 + d;
      assert DigitsValue(b) == DigitsValue(b') * 10 + d;
      assert Pow10(|b|) == 10 * Pow10(|b'|);
      DigitsValueAppend(a, b');
      ShiftStep(DigitsValue(a), Pow10(|b'|), DigitsValue(b'), d);
    }
  }

  /** A run of `k` zero digits. */
  function Zeros(k: nat): (s: string)
    ensures |s| == k && AllDigits(s) && DigitsValue(s) == 0
  {
    if k == 0 then ""
    else
      var z := Zeros(k - 1);
      assert (z + "0")[..k - 1] == z;
      z + "0"
  }

  /** Pads a numeral with leading zeros to at least `width` digits. */
  function PadLeft(s: string, width: nat): (r: string)
    requires AllDigits(s)
    ensures AllDigits(r)
    ensures |r| == if |s| < width then width else |s|
    ensures DigitsValue(r) == DigitsValue(s)
  {
    if |s| >= width then s
    else
      var z := Zeros(width - |s|);
      DigitsValueAppend(z, s);
      z + s
  }

  /** The white space this model skips at the front of a numeral. */
  predicate IsSpace(c: char)
  {
    c == ' ' || c == '\t' || c == '\n' || c == '\r'
  }

  /** Drops the leading white space. */
  function TrimStart(s: string): (r: string)
    ensures |r| <= |s| && r == s[|s| - |r|..]
    ensures forall i :: 0 <= i < |s| - |r| ==> IsSpace(s[i])
    ensures |r| > 0 ==> !IsSpace(r[0])
    decreases |s|
  {
    if |s| > 0 && IsSpace(s[0]) then TrimStart(s[1..]) else s
  }

  /** A numeral split into its sign and what follows the sign. */
  datatype Signed = Signed(negative: bool, body: string)

  function SplitSign(s: string): Signed
  {
    if |s| > 0 && s[0] == '-' then Signed(true, s[1..])
    else if |s| > 0 && s[0] == '+' then Signed(false, s[1..])
    else Signed(false, s)
  }

  /** The length of the run of digits at the front of `s`. */
  function DigitRun(s: string): (k: nat)
    ensures k <= |s| && AllDigits(s[..k])
    ensures k < |s| ==> !IsDigit(s[k])
    decreases |s|
  {
    if |s| > 0 && IsDigit(s[0]) then
      1 + DigitRun(s[1..])
    else 0
  }

  lemma {:induction false} DigitRunOfDigits(a: string, b: string)
    requires AllDigits(a)
    requires |b| == 0 || !IsDigit(b[0])
    ensures DigitRun(a + b) == |a|
    decreases |a|
  {
    if |a| == 0 {
      assert a + b == b;
    } else {
      assert (a + b)[1..] == a[1..] + b;
      DigitRunOfDigits(a[1..], b);
    }
  }

  /** `parseInt(s)` in base 10: leading white space is skipped, an optional
      sign is read, then the longest run of decimal digits. None stands for
      NaN, the result when no digit follows the sign. */
  function ParseInt(s: string): (r: Option<int>)
    ensures var t := SplitSign(TrimStart(s));
      r.Some? <==> |t.body| > 0 && IsDigit(t.body[0])
    ensures r.Some? && r.value < 0 ==> SplitSign(TrimStart(s)).negative
  {
    var t := SplitSign(TrimStart(s));
    var k := DigitRun(t.body);
    if k == 0 then None
    else
      var v: int := DigitsValue(t.body[..k]);
      Some(if t.negative then -v else v)
  }

  /** `n.toString()` for an integer. */
  function ShowInt(n: int): (s: string)
    ensures |s| > 0
    ensures s[0] == '-' <==> n < 0
    ensures n >= 0 ==> AllDigits(s)
    ensures n < 0 ==> AllDigits(s[1..])
  {
    if n < 0 then "-" + NatDigits(-n) else NatDigits(n)
  }

  /** Parsing the shown integer gives the integer back. */
  lemma ParseShowInt(n: int)
    ensures ParseInt(ShowInt(n)) == Some(n)
  {
    var m: nat := if n < 0 then -n else n;
    var d := NatDigits(m);
    assert ShowInt(n) == if n < 0 then "-" + d else d;
    SignOfNumeral(n < 0, d);
    DigitRunOfDigits(d, "");
    assert d + "" == d;
    assert d[..|d|] == d;
    NatDigitsValue(m);
  }

  /** An exact decimal number: `mantissa / 10^scale`. Prices are kept this way. */
  datatype Decimal = Decimal(mantissa: int, scale: nat)

  const Zero: Decimal := Decimal(0, 0)

  function Value(d: Decimal): real
  {
    d.mantissa as real / Pow10(d.scale) as real
  }

  lemma DropTrailingZero(q: int, s: nat)
    ensures Value(Decimal(q * 10, s + 1)) == Value(Decimal(q, s))
  {
    var p := Pow10(s) as real;
    assert Pow10(s + 1) as real == 10.0 * p;
    assert (q * 10) as real == q as real * 10.0;
    assert (q as real * 10.0) / (10.0 * p) == q as real / p;
  }

  /** Removes trailing zeros after the decimal point; the value is kept. */
  function Normalize(d: Decimal): (n: Decimal)
    ensures Value(n) == Value(d)
    ensures n.scale == 0 || n.mantissa % 10 != 0
    ensures n.mantissa < 0 <==> d.mantissa < 0
    ensures n.scale <= d.scale
    decreases d.scale
  {
    if d.scale > 0 && d.mantissa % 10 == 0 then
      var q := d.mantissa / 10;
      DropTrailingZero(q, d.scale - 1);
      assert d == Decimal(q * 10, d.scale - 1 + 1);
      Normalize(Decimal(q, d.scale - 1))
    else d
  }

  function Abs(n: int): nat
  {
    if n < 0 then -n else n
  }

  /** The digits of `|n.mantissa|`, padded so that at least one digit stands
      before the decimal point. */
  function NumeralDigits(n: Decimal): (s: string)
    ensures AllDigits(s) && |s| >= n.scale + 1
    ensures DigitsValue(s) == Abs(n.mantissa)
  {
    NatDigitsValue(Abs(n.mantissa));
    PadLeft(NatDigits(Abs(n.mantissa)), n.scale + 1)
  }

  /** The unsigned numeral of `n`, with a '.' before the last `n.scale` digits. */
  function NumeralBody(n: Decimal): string
  {
    var digits := NumeralDigits(n);
    if n.scale == 0 then digits
    else digits[..|digits| - n.scale] + "." + digits[|digits| - n.scale..]
  }

  /** `x.toString()` for a price: the digits of its value with no trailing
      zeros after the decimal point and at least one digit before it. */
  function ShowDecimal(d: Decimal): (s: string)
    ensures |s| > 0
    ensures s[0] == '-' <==> d.mantissa < 0
  {
    var n := Normalize(d);
    ReadNumeralBody(false, n);
    if n.mantissa < 0 then "-" + NumeralBody(n) else NumeralBody(n)
  }

  /** The digits of a fraction: those right after a leading '.'. */
  function FractionDigits(rest: string): (f: string)
    ensures AllDigits(f)
  {
    if |rest| > 0 && rest[0] == '.' then rest[1..][..DigitRun(rest[1..])] else ""
  }

  /** Reads the digits that follow the sign: a whole part, then an optional fraction. */
  function ReadDecimal(t: Signed): Option<Decimal>
  {
    var k := DigitRun(t.body);
    var whole := t.body[..k];
    var fraction := FractionDigits(t.body[k..]);
    if |whole| + |fraction| == 0 then None
    else
      AllDigitsAppend(whole, fraction);
      var m: int := DigitsValue(whole + fraction);
      Some(Decimal(if t.negative then -m else m, |fraction|))
  }

  /** `parseFloat(s)`: leading white space is skipped, an optional sign is
      read, then digits with an optional fraction after a '.'. None stands
      for NaN, the result when neither part has a digit. */
  function ParseFloat(s: string): (r: Option<Decimal>)
    ensures var b := SplitSign(TrimStart(s)).body;
      r.Some? <==> (|b| > 0 && IsDigit(b[0])) || (|b| > 1 && b[0] == '.' && IsDigit(b[1]))
    ensures r.Some? && r.value.mantissa < 0 ==> SplitSign(TrimStart(s)).negative
  {
    ReadDecimal(SplitSign(TrimStart(s)))
  }

  /** An empty field is not a number to either parser. */
  lemma EmptyIsNaN()
    ensures ParseInt("") == None && ParseFloat("") == None
  {
    assert TrimStart("") == "";
    assert SplitSign("").body == "";
  }

  /** Text that starts with something other than white space is not trimmed. */
  lemma NothingToTrim(s: string)
    requires |s| > 0 && !IsSpace(s[0])
    ensures TrimStart(s) == s
  {
  }

  /** A signed numeral whose body starts with a digit is read past its sign. */
  lemma SignOfNumeral(negative: bool, body: string)
    requires |body| > 0 && IsDigit(body[0])
    ensures SplitSign(TrimStart(if negative then "-" + body else body)) == Signed(negative, body)
  {
    if negative {
      var s := "-" + body;
      assert s[0] == '-' && s[1..] == body;
      NothingToTrim(s);
      assert SplitSign(s) == Signed(true, body);
    } else {
      NothingToTrim(body);
      assert SplitSign(body) == Signed(false, body);
    }
  }

  /** A run of digits with no fraction is read whole. */
  lemma ReadWholeNumeral(negative: bool, a: string)
    requires AllDigits(a) && |a| > 0
    ensures ReadDecimal(Signed(negative, a)).Some?
    ensures ReadDecimal(Signed(negative, a)).value.scale == 0
    ensures ReadDecimal(Signed(negative, a)).value.mantissa
      == if negative then -(DigitsValue(a) as int) else DigitsValue(a)
  {
    DigitRunOfDigits(a, "");
    assert a + "" == a;
    var k := DigitRun(a);
    var whole := a[..k];
    var fraction := FractionDigits(a[k..]);
    assert whole == a && fraction == "";
    assert whole + fraction == a;
    assert DigitsValue(whole + fraction) == DigitsValue(a);
  }

  /** The whole part and fraction of `a.b` are `a` and `b`. */
  lemma ReadFractionalNumeral(negative: bool, a: string, b: string)
    requires AllDigits(a) && AllDigits(b) && |a| > 0 && |b| > 0
    ensures AllDigits(a + b)
    ensures ReadDecimal(Signed(negative, a + "." + b)).Some?
    ensures ReadDecimal(Signed(negative, a + "." + b)).value.scale == |b|
    ensures ReadDecimal(Signed(negative, a + "." + b)).value.mantissa
      == if negative then -(DigitsValue(a + b) as int) else DigitsValue(a + b)
  {
    AllDigitsAppend(a, b);
    var body := a + "." + b;
    assert body == a + ("." + b);
    DigitRunOfDigits(a, "." + b);
    assert body[..|a|] == a;
    assert body[|a|..] == "." + b;
    FractionOf(b);
  }

  /** The fraction read after a '.' is the run of digits that follows it. */
  lemma FractionOf(b: string)
    requires AllDigits(b)
    ensures FractionDigits("." + b) == b
  {
    assert ("." + b)[1..] == b;
    DigitRunOfDigits(b, "");
    assert b + "" == b;
  }

  /** The body of a numeral reads back as the unsigned mantissa and the scale. */
  lemma ReadNumeralBody(negative: bool, n: Decimal)
    ensures |NumeralBody(n)| > 0 && IsDigit(NumeralBody(n)[0])
    ensures ReadDecimal(Signed(negative, NumeralBody(n))).Some?
    ensures ReadDecimal(Signed(negative, NumeralBody(n))).value.scale == n.scale
    ensures ReadDecimal(Signed(negative, NumeralBody(n))).value.mantissa
      == if negative then -(Abs(n.mantissa) as int) else Abs(n.mantissa)
  {
    var digits := NumeralDigits(n);
    if n.scale == 0 {
      ReadWholeNumeral(negative, digits);
    } else {
      var a := digits[..|digits| - n.scale];
      var b := digits[|digits| - n.scale..];
      assert a + b == digits;
      ReadFractionalNumeral(negative, a, b);
    }
  }

  /** Parsing the shown price gives back its normal form, which has the same value. */
  lemma ParseShowDecimal(d: Decimal)
    ensures ParseFloat(ShowDecimal(d)) == Some(Normalize(d))
    ensures Value(ParseFloat(ShowDecimal(d)).value) == Value(d)
  {
    var n := Normalize(d);
    var negative := n.mantissa < 0;
    ReadNumeralBody(negative, n);
    SignOfNumeral(negative, NumeralBody(n));
  }

  /** Every suffix of a text without digits has no digit. */
  lemma SuffixHasNoDigit(s: string, n: nat)
    requires n <= |s|
    requires forall i :: 0 <= i < |s| ==> !IsDigit(s[i])
    ensures forall i :: 0 <= i < |s[n..]| ==> !IsDigit(s[n..][i])
  {
    forall i | 0 <= i < |s[n..]| ensures !IsDigit(s[n..][i]) {
      assert s[n..][i] == s[n + i];
    }
  }

  /** What follows the white space and the sign of a text without digits has no digit either. */
  lemma BodyHasNoDigit(s: string)
    requires forall i :: 0 <= i < |s| ==> !IsDigit(s[i])
    ensures var body := SplitSign(TrimStart(s)).body;
      forall i :: 0 <= i < |body| ==> !IsDigit(body[i])
  {
    var trimmed := TrimStart(s);
    SuffixHasNoDigit(s, |s| - |trimmed|);
    if |trimmed| > 0 && (trimmed[0] == '-' || trimmed[0] == '+') {
      SuffixHasNoDigit(trimmed, 1);
    }
  }

  /** Text with no digit at all parses to NaN either way. */
  lemma NoDigitsParseNaN(s: string)
    requires forall i :: 0 <= i < |s| ==> !IsDigit(s[i])
    ensures ParseInt(s) == None
    ensures ParseFloat(s) == None
  {
    BodyHasNoDigit(s);
    var b := SplitSign(TrimStart(s)).body;
    assert |b| == 0 || !IsDigit(b[0]);
    assert |b| <= 1 || !IsDigit(b[1]);
  }

  /** `parseInt(text) || 0`: NaN and zero both give 0. */
  function IntOrZero(p: Option<int>): (r: int)
    ensures r == if p.Some? then p.value else 0
  {
    if p.Some? && p.value != 0 then p.value else 0
  }

  /** `parseFloat(text) || 0`: NaN and zero both give 0. */
  function DecimalOrZero(p: Option<Decimal>): (r: Decimal)
    ensures Value(r) == if p.Some? then Value(p.value) else 0.0
  {
    if p.Some? && Value(p.value) != 0.0 then p.value else Zero
  }
}

=== FILE: ordering.dfy ===
/** The order every list query asks for: `order('created_at', { ascending: false })`. */
module Ordering {
  import opened Base
  import opened Rows

  /** Newest row first. */
  predicate NewestFirst<F>(rows: seq<Row<F>>)
  {
    forall i, j :: 0 <= i < j < |rows| ==> rows[i].createdAt >= rows[j].createdAt
  }

  /** A row at least as new as every row of a newest-first list can go in front of it. */
  lemma NewestFirstCons<F>(x: Row<F>, s: seq<Row<F>>)
    requires NewestFirst(s)
    requires forall k :: 0 <= k < |s| ==> s[k].createdAt <= x.createdAt
    ensures NewestFirst([x] + s)
  {
    var r := [x] + s;
    forall i, j | 0 <= i < j < |r| ensures r[i].createdAt >= r[j].createdAt {
      assert r[j] == s[j - 1];
      if i > 0 {
        assert r[i] == s[i - 1];
      }
    }
  }

  /** Places `x` after every row of `s` that is at least as new as `x`. */
  function InsertByAge<F>(x: Row<F>, s: seq<Row<F>>): (r: seq<Row<F>>)
    requires NewestFirst(s)
    ensures NewestFirst(r)
    ensures multiset(r) == multiset(s) + multiset{x}
    ensures forall k :: 0 <= k < |r| ==> r[k] == x || r[k] in s
    decreases |s|
  {
    if |s| == 0 then [x]
    else if x.createdAt > s[0].createdAt then
      NewestFirstCons(x, s);
      [x] + s
    else
      var tail := s[1..];
      var t := InsertByAge(x, tail);
      assert s == [s[0]] + tail;
      assert forall k :: 0 <= k < |t| ==> t[k].createdAt <= s[0].createdAt by {
        forall k | 0 <= k < |t| ensures t[k].createdAt <= s[0].createdAt {
          if t[k] != x {
            var j :| 0 <= j < |tail| && tail[j] == t[k];
            assert tail[j] == s[j + 1];
          }
        }
      }
      NewestFirstCons(s[0], t);
      [s[0]] + t
  }

  /** The rows of a table, newest first. */
  function SortNewestFirst<F>(rows: seq<Row<F>>): (r: seq<Row<F>>)
    ensures NewestFirst(r)
    ensures multiset(r) == multiset(rows)
    ensures forall k :: 0 <= k < |r| ==> r[k] in rows
    decreases |rows|
  {
    if |rows| == 0 then []
    else
      var front := rows[..|rows| - 1];
      assert rows == front + [rows[|rows| - 1]];
      InsertByAge(rows[|rows| - 1], SortNewestFirst(front))
  }

  /** Inserting a row whose identifier is new keeps identifiers unique. */
  lemma {:induction false} InsertByAgeKeepsUniqueIds<F>(x: Row<F>, s: seq<Row<F>>)
    requires NewestFirst(s) && UniqueIds(s) && !HasId(s, x.id)
    ensures UniqueIds(InsertByAge(x, s))
    decreases |s|
  {
    if |s| == 0 || x.createdAt > s[0].createdAt {
      ConsKeepsUniqueIds(x, s);
    } else {
      var tail := s[1..];
      var t := InsertByAge(x, tail);
      TailKeepsUniqueIds(s);
      assert !HasId(tail, x.id) by {
        forall i | 0 <= i < |tail| ensures tail[i].id != x.id {
          assert tail[i] == s[i + 1];
        }
      }
      InsertByAgeKeepsUniqueIds(x, tail);
      assert !HasId(t, s[0].id) by {
        forall k | 0 <= k < |t| ensures t[k].id != s[0].id {
          if t[k] != x {
            var j :| 0 <= j < |tail| && tail[j] == t[k];
          }
        }
      }
      ConsKeepsUniqueIds(s[0], t);
    }
  }

  /** Sorting keeps identifiers unique. */
  lemma {:induction false} SortKeepsUniqueIds<F>(rows: seq<Row<F>>)
    requires UniqueIds(rows)
    ensures UniqueIds(SortNewestFirst(rows))
    decreases |rows|
  {
    if |rows| > 0 {
      var front := rows[..|rows| - 1];
      var x := rows[|rows| - 1];
      assert UniqueIds(front) by {
        forall i, j | 0 <= i < j < |front| ensures front[i].id != front[j].id {
          assert front[i] == rows[i] && front[j] == rows[j];
        }
      }
      SortKeepsUniqueIds(front);
      var sorted := SortNewestFirst(front);
      assert !HasId(sorted, x.id) by {
        forall k | 0 <= k < |sorted| ensures sorted[k].id != x.id {
          assert sorted[k] in front;
          var i :| 0 <= i < |front| && front[i] == sorted[k];
          assert rows[i] == sorted[k];
        }
      }
      InsertByAgeKeepsUniqueIds(x, sorted);
    }
  }

  /** A row newer than every other row is listed first. */
  lemma NewestRowListedFirst<F>(rows: seq<Row<F>>, x: Row<F>)
    requires forall k :: 0 <= k < |rows| ==> rows[k].createdAt < x.createdAt
    ensures SortNewestFirst(rows + [x])[0] == x
  {
    var all := rows + [x];
    assert all[..|all| - 1] == rows;
    var sorted := SortNewestFirst(rows);
    assert SortNewestFirst(all) == InsertByAge(x, sorted);
    if |sorted| > 0 {
      assert sorted[0] in rows;
    }
  }
}

=== FILE: produtos_page.dfy ===
/** The products page: its form fields (prices and stock typed as text),
    the conversion between a listed product and the form, the submit and
    delete handlers, and the search filter over the listed products. */
module ProdutosPage {
  import opened Base
  import opened Rows
  import opened Text
  import opened Numerals
  import opened Search
  import opened Gateway
  import opened QueryCache
  import opened Sync
  import opened Forms
  import UseProdutos

  /** The form's fields, all text; the supplier is an identifier or empty for none. */
  datatype Draft = Draft(
    nome: string,
    sku: string,
    precoCusto: string,
    precoVenda: string,
    estoqueAtual: string,
    fornecedorId: string)

  const Blank: Draft := Draft("", "", "", "", "", "")

  type State = Form<Draft, ProdutoView>

  const Created: string := "Produto criado com sucesso!"
  const Updated: string := "Produto atualizado com sucesso!"
  const SaveFailed: string := "Erro ao salvar produto"
  const Deleted: string := "Produto excluído com sucesso!"
  const DeleteFailed: string := "Erro ao excluir produto"

  /** `fornecedor_id || ''`. */
  function IdText(ref: Option<Id>): (s: string)
    ensures |s| == 0 <==> ref.None?
  {
    if ref.Some? then ref.value else ""
  }

  /** `formData.fornecedor_id || null`. */
  function IdOrNull(s: string): (ref: Option<Id>)
    ensures ref.None? <==> |s| == 0
    ensures ref.Some? ==> ref.value == s
  {
    if |s| == 0 then None else Some(s)
  }

  /** The supplier reference survives the trip through the form's text field. */
  lemma IdTextRoundTrip(ref: Option<Id>)
    ensures IdOrNull(IdText(ref)) == ref
  {
  }

  /** The fields shown when a product is opened for editing: numbers as
      `toString()` writes them, no supplier as empty. */
  function Seed(v: ProdutoView): (d: Draft)
    ensures d.nome == v.row.fields.nome && d.sku == v.row.fields.sku
    ensures d.precoCusto == ShowDecimal(v.row.fields.precoCusto)
    ensures d.precoVenda == ShowDecimal(v.row.fields.precoVenda)
    ensures d.estoqueAtual == ShowInt(v.row.fields.estoqueAtual)
    ensures d.fornecedorId == IdText(v.row.fields.fornecedorId)
  {
    var f := v.row.fields;
    Draft(f.nome, f.sku, ShowDecimal(f.precoCusto), ShowDecimal(f.precoVenda),
      ShowInt(f.estoqueAtual), IdText(f.fornecedorId))
  }

  /** The columns a submit sends: `parseFloat(x) || 0` for the prices,
      `parseInt(x) || 0` for the stock, and null for an empty supplier. */
  function Payload(d: Draft): (f: ProdutoFields)
    ensures f.nome == d.nome && f.sku == d.sku
    ensures Value(f.precoCusto) == if ParseFloat(d.precoCusto).Some? then Value(ParseFloat(d.precoCusto).value) else 0.0
    ensures Value(f.precoVenda) == if ParseFloat(d.precoVenda).Some? then Value(ParseFloat(d.precoVenda).value) else 0.0
    ensures f.estoqueAtual == if ParseInt(d.estoqueAtual).Some? then ParseInt(d.estoqueAtual).value else 0
    ensures f.fornecedorId.None? <==> d.fornecedorId == ""
    ensures d.fornecedorId != "" ==> f.fornecedorId == Some(d.fornecedorId)
  {
    ProdutoFields(d.nome, d.sku,
      DecimalOrZero(ParseFloat(d.precoCusto)), DecimalOrZero(ParseFloat(d.precoVenda)),
      IntOrZero(ParseInt(d.estoqueAtual)), IdOrNull(d.fornecedorId))
  }

  /** Two column sets that hold the same values (prices compared as numbers). */
  predicate SameValues(a: ProdutoFields, b: ProdutoFields)
  {
    && a.nome == b.nome && a.sku == b.sku
    && Value(a.precoCusto) == Value(b.precoCusto) && Value(a.precoVenda) == Value(b.precoVenda)
    && a.estoqueAtual == b.estoqueAtual && a.fornecedorId == b.fornecedorId
  }

  /** Opening a product and saving it without changes writes back the same values. */
  lemma UnchangedEdit(v: ProdutoView)
    ensures SameValues(Payload(Seed(v)), v.row.fields)
  {
    var f := v.row.fields;
    ParseShowDecimal(f.precoCusto);
    ParseShowDecimal(f.precoVenda);
    ParseShowInt(f.estoqueAtual);
  }

  /** A price or stock field left empty, or holding no digit at all, is sent as 0. */
  lemma NoDigitsSendZero(d: Draft)
    ensures (forall i :: 0 <= i < |d.precoCusto| ==> !IsDigit(d.precoCusto[i])) ==>
      Value(Payload(d).precoCusto) == 0.0
    ensures (forall i :: 0 <= i < |d.precoVenda| ==> !IsDigit(d.precoVenda[i])) ==>
      Value(Payload(d).precoVenda) == 0.0
    ensures (forall i :: 0 <= i < |d.estoqueAtual| ==> !IsDigit(d.estoqueAtual[i])) ==>
      Payload(d).estoqueAtual == 0
  {
    if forall i :: 0 <= i < |d.precoCusto| ==> !IsDigit(d.precoCusto[i]) {
      NoDigitsParseNaN(d.precoCusto);
    }
    if forall i :: 0 <= i < |d.precoVenda| ==> !IsDigit(d.precoVenda[i]) {
      NoDigitsParseNaN(d.precoVenda);
    }
    if forall i :: 0 <= i < |d.estoqueAtual| ==> !IsDigit(d.estoqueAtual[i]) {
      NoDigitsParseNaN(d.estoqueAtual);
    }
  }

  /** `openDialog(produto?)`. */
  function OpenDialog(f: State, v: Option<ProdutoView>): (r: State)
    ensures r.open && r.editing == v
    ensures v.None? ==> r.draft == Blank
    ensures v.Some? ==> r.draft == Seed(v.value)
  {
    Open(f, Blank, v, Seed)
  }

  /** What a submit did: the dialog afterwards, the state, and the toast. */
  datatype Outcome = Outcome(form: State, app: App, notice: Notice)

  /** `handleSubmit`: the payload is converted from the form first; then
      the product being edited is updated with every column of it, or a
      product is created from it; a success closes and resets the dialog, a
      failure keeps it open with its fields and reports why. */
  function HandleSubmit(f: State, app: App, user: Option<Id>, freshId: Id, now: nat, fault: Option<Fault>)
    : (o: Outcome)
    ensures o.notice.Success? <==>
      if f.editing.Some? then fault.None? && HasId(app.store.produtos, f.editing.value.row.id)
      else user.Some? && fault.None? && !HasId(app.store.produtos, freshId)
    ensures o.notice.Success? ==>
      && o.form == Form(Blank, None, false)
      && o.notice.title == (if f.editing.Some? then Updated else Created)
      && o.app.cache == Invalidate(app.cache, ProdutosKey)
    ensures o.notice.Failure? ==> o.form == f && o.app == app && o.notice.title == SaveFailed
    ensures f.editing.None? && user.None? ==> o.notice == Failure(SaveFailed, UnauthenticatedMessage)
    ensures f.editing.None? && o.notice.Success? ==>
      o.app.store == app.store.(produtos := app.store.produtos + [Row(freshId, user.value, now, Payload(f.draft))])
    ensures f.editing.Some? && o.notice.Success? ==>
      && o.app.store == app.store.(produtos := o.app.store.produtos)
      && |o.app.store.produtos| == |app.store.produtos|
      && forall i :: 0 <= i < |app.store.produtos| ==>
           o.app.store.produtos[i] == if app.store.produtos[i].id == f.editing.value.row.id
             then app.store.produtos[i].(fields := Payload(f.draft))
             else app.store.produtos[i]
    ensures (f.editing.Some? || user.Some?) && fault.Some? ==>
      o.notice == Failure(SaveFailed, Describe(Remote(fault.value.message)))
    ensures f.editing.Some? && fault.None? && !HasId(app.store.produtos, f.editing.value.row.id) ==>
      o.notice == Failure(SaveFailed, FallbackMessage)
    ensures f.editing.None? && user.Some? && fault.None? && HasId(app.store.produtos, freshId) ==>
      o.notice == Failure(SaveFailed, FallbackMessage)
    ensures Consistent(app.store) ==> Consistent(o.app.store)
  {
    var payload := Payload(f.draft);
    var s := if f.editing.Some?
      then UseProdutos.Update(app, f.editing.value.row.id, ProdutoColumns(payload), fault)
      else UseProdutos.Create(app, user, payload, freshId, now, fault);
    var (form, notice) := Conclude(f, Blank, s.result, if f.editing.Some? then Updated else Created, SaveFailed);
    Outcome(form, s.app, notice)
  }

  /** A price field the browser lets through (`type="number"`, `min="0"`):
      empty, or a number that is not negative, as this model reads it. */
  predicate PriceField(x: string)
  {
    x == "" || (ParseFloat(x).Some? && Value(ParseFloat(x).value) >= 0.0)
  }

  /** A stock field the browser lets through: empty, or a whole number that is not negative. */
  predicate StockField(x: string)
  {
    x == "" || (ParseInt(x).Some? && ParseInt(x).value >= 0)
  }

  /** The browser's check before `handleSubmit` runs: name and SKU are
      `required`, and the prices and stock pass their number inputs. */
  predicate Submittable(d: Draft)
  {
    && d.nome != "" && d.sku != ""
    && PriceField(d.precoCusto) && PriceField(d.precoVenda) && StockField(d.estoqueAtual)
  }

  /** The columns a product may hold when every write came through the form. */
  predicate Sane(f: ProdutoFields)
  {
    && f.nome != "" && f.sku != ""
    && Value(f.precoCusto) >= 0.0 && Value(f.precoVenda) >= 0.0 && f.estoqueAtual >= 0
  }

  predicate AllSane(t: seq<Produto>)
  {
    forall k :: 0 <= k < |t| ==> Sane(t[k].fields)
  }

  /** A form that passed the browser's check sends a name, a SKU, and prices
      and stock that are not negative. */
  lemma GatedPayloadIsSane(d: Draft)
    requires Submittable(d)
    ensures Sane(Payload(d))
  {
    var f := Payload(d);
    PriceFieldNonNegative(d.precoCusto);
    PriceFieldNonNegative(d.precoVenda);
    StockFieldNonNegative(d.estoqueAtual);
  }

  /** A price the browser lets through is sent as a number that is not negative. */
  lemma PriceFieldNonNegative(x: string)
    requires PriceField(x)
    ensures Value(DecimalOrZero(ParseFloat(x))) >= 0.0
  {
    if x == "" {
      EmptyIsNaN();
    }
  }

  /** A stock the browser lets through is sent as a count that is not negative. */
  lemma StockFieldNonNegative(x: string)
    requires StockField(x)
    ensures IntOrZero(ParseInt(x)) >= 0
  {
    if x == "" {
      EmptyIsNaN();
    }
  }

  /** A save that passed the browser's check keeps every stored product sane. */
  lemma GatedSubmitKeepsSane(f: State, app: App, user: Option<Id>, freshId: Id, now: nat, fault: Option<Fault>)
    requires Submittable(f.draft) && AllSane(app.store.produtos)
    ensures AllSane(HandleSubmit(f, app, user, freshId, now, fault).app.store.produtos)
  {
    var o := HandleSubmit(f, app, user, freshId, now, fault);
    var before, after := app.store.produtos, o.app.store.produtos;
    var p := Payload(f.draft);
    GatedPayloadIsSane(f.draft);
    if o.notice.Failure? {
      assert after == before;
    } else if f.editing.None? {
      assert after == before + [Row(freshId, user.value, now, p)];
      forall k | 0 <= k < |after| ensures Sane(after[k].fields) {
        if k < |before| {
          assert after[k] == before[k];
        }
      }
    } else {
      var eid := f.editing.value.row.id;
      forall k | 0 <= k < |after| ensures Sane(after[k].fields) {
        assert after[k] == if before[k].id == eid then before[k].(fields := p) else before[k];
      }
    }
  }

  /** `handleDelete`: nothing happens unless the user confirms; a confirmed
      delete removes the product and reports success, or reports the failure. */
  function HandleDelete(app: App, id: Id, confirmed: bool, fault: Option<Fault>): (r: (App, Option<Notice>))
    ensures !confirmed ==> r == (app, None)
    ensures confirmed && fault.Some? ==>
      r == (app, Some(Failure(DeleteFailed, Describe(Remote(fault.value.message)))))
    ensures confirmed && fault.None? ==>
      && r.1 == Some(Success(Deleted))
      && !HasId(r.0.store.produtos, id)
      && (forall k :: 0 <= k < |app.store.produtos| && app.store.produtos[k].id != id ==>
            app.store.produtos[k] in r.0.store.produtos)
      && (forall k :: 0 <= k < |r.0.store.produtos| ==> r.0.store.produtos[k] in app.store.produtos)
      && r.0.store == app.store.(produtos := r.0.store.produtos)
      && r.0.cache == Invalidate(app.cache, ProdutosKey)
    ensures Consistent(app.store) ==> Consistent(r.0.store)
  {
    if !confirmed then (app, None)
    else
      var s := UseProdutos.Delete(app, id, fault);
      (s.app, Some(Announce(s.result, Deleted, DeleteFailed)))
  }

  /** The search test: the name or the SKU contains the search text, in any letter case. */
  predicate Matches(v: ProdutoView, search: string)
  {
    Contains(Lower(v.row.fields.nome), Lower(search)) || Contains(Lower(v.row.fields.sku), Lower(search))
  }

  /** `filteredProdutos`: nothing while the list has not loaded. */
  function Filtered(data: Option<seq<ProdutoView>>, search: string): (r: Option<seq<ProdutoView>>)
    ensures r.Some? <==> data.Some?
    ensures r.Some? ==> forall k :: 0 <= k < |r.value| ==> r.value[k] in data.value && Matches(r.value[k], search)
    ensures r.Some? ==> forall k :: 0 <= k < |data.value| && Matches(data.value[k], search) ==> data.value[k] in r.value
  {
    match data
    case None => None
    case Some(xs) => Some(Filter(xs, v => Matches(v, search)))
  }

  /** An empty search lists every product, in order. */
  lemma EmptySearchListsAll(data: Option<seq<ProdutoView>>)
    ensures Filtered(data, "") == data
  {
    if data.Some? {
      forall k | 0 <= k < |data.value| ensures Matches(data.value[k], "") {
        ContainsEmpty(Lower(data.value[k].row.fields.nome));
      }
      FilterKeepsAll(data.value, v => Matches(v, ""));
    }
  }

  /** The search ignores letter case entirely: the search text and its lower-case form find the same products. */
  lemma SearchIgnoresCase(data: Option<seq<ProdutoView>>, search: string)
    ensures Filtered(data, search) == Filtered(data, Lower(search))
  {
    LowerIdempotent(search);
    if data.Some? {
      FilterAgree(data.value, v => Matches(v, search), v => Matches(v, Lower(search)));
    }
  }

  /** Searching for a product's SKU, typed in any letter case, lists it. */
  lemma SearchBySkuFinds(xs: seq<ProdutoView>, k: nat, typed: string)
    requires k < |xs| && Lower(typed) == Lower(xs[k].row.fields.sku)
    ensures xs[k] in Filtered(Some(xs), typed).value
  {
    ContainsSelf(Lower(xs[k].row.fields.sku));
  }
}

=== FILE: query_cache.dfy ===
/** The query cache: one entry per list query key (`['clientes']`,
    `['fornecedores']`, `['produtos']`), holding the last fetched rows and a
    stale flag. Invalidation marks a whole key stale; the next read of that
    key fetches again. */
module QueryCache {
  import opened Base
  import opened Rows

  datatype Key = ClientesKey | FornecedoresKey | ProdutosKey

  /** The last rows fetched under a key and whether they must be fetched again. */
  datatype Entry<T> = Entry(rows: seq<T>, stale: bool)

  /** One slot per key; a slot is absent until its query first succeeds. */
  datatype Cache = Cache(
    clientes: Option<Entry<Cliente>>,
    fornecedores: Option<Entry<Fornecedor>>,
    produtos: Option<Entry<ProdutoView>>)

  /** Marks a slot stale; its rows are kept until they are fetched again. */
  function MarkStale<T>(slot: Option<Entry<T>>): (r: Option<Entry<T>>)
    ensures r.Some? <==> slot.Some?
    ensures r.Some? ==> r.value.rows == slot.value.rows && r.value.stale
  {
    match slot
    case None => None
    case Some(e) => Some(e.(stale := true))
  }

  /** The slots of every key other than `k` are the same in `c` and `d`. */
  predicate SameExcept(c: Cache, d: Cache, k: Key)
  {
    && (k != ClientesKey ==> d.clientes == c.clientes)
    && (k != FornecedoresKey ==> d.fornecedores == c.fornecedores)
    && (k != ProdutosKey ==> d.produtos == c.produtos)
  }

  /** The slot of `k` in `d` is the slot of `k` in `c`, marked stale. */
  predicate StaleAt(c: Cache, d: Cache, k: Key)
  {
    match k
    case ClientesKey => d.clientes == MarkStale(c.clientes)
    case FornecedoresKey => d.fornecedores == MarkStale(c.fornecedores)
    case ProdutosKey => d.produtos == MarkStale(c.produtos)
  }

  /** `invalidateQueries({ queryKey: [k] })`. */
  function Invalidate(c: Cache, k: Key): (r: Cache)
    ensures SameExcept(c, r, k)
    ensures StaleAt(c, r, k)
  {
    match k
    case ClientesKey => c.(clientes := MarkStale(c.clientes))
    case FornecedoresKey => c.(fornecedores := MarkStale(c.fornecedores))
    case ProdutosKey => c.(produtos := MarkStale(c.produtos))
  }

  /** Invalidating a key twice is the same as invalidating it once. */
  lemma InvalidateIdempotent(c: Cache, k: Key)
    ensures Invalidate(Invalidate(c, k), k) == Invalidate(c, k)
  {
  }

  /** Invalidations of two keys can happen in either order. */
  lemma InvalidateCommutes(c: Cache, k: Key, j: Key)
    ensures Invalidate(Invalidate(c, k), j) == Invalidate(Invalidate(c, j), k)
  {
  }

  /** The slot after a fetch: a success stores fresh rows; a failure leaves the slot as it was. */
  function Settle<T>(slot: Option<Entry<T>>, fetched: Result<seq<T>>): (r: Option<Entry<T>>)
    ensures fetched.Ok? ==> r == Some(Entry(fetched.value, false))
    ensures fetched.Err? ==> r == slot
  {
    match fetched
    case Ok(rows) => Some(Entry(rows, false))
    case Err(_) => slot
  }

  /** What a page reads as `data`: the cached rows, or nothing when no fetch has succeeded. */
  function Data<T>(slot: Option<Entry<T>>): Option<seq<T>>
  {
    match slot
    case None => None
    case Some(e) => Some(e.rows)
  }
}

=== FILE: rows.dfy ===
/** The rows of the three tables (`clientes`, `fornecedores`, `produtos`),
    the column patches an update sends, and the joined product view. */
module Rows {
  import opened Base
  import opened Numerals

  /** A stored row. Identity, owning user and creation time are fixed when
      the row is inserted; `fields` holds the entity's own columns. */
  datatype Row<F> = Row(id: Id, userId: Id, createdAt: nat, fields: F)

  datatype ClienteFields = ClienteFields(
    nome: string,
    cpfCnpj: string,
    email: Option<string>,
    telefone: Option<string>,
    enderecoRua: Option<string>,
    enderecoNumero: Option<string>,
    enderecoCidade: Option<string>,
    enderecoEstado: Option<string>,
    enderecoCep: Option<string>)

  datatype FornecedorFields = FornecedorFields(
    razaoSocial: string,
    cnpj: string,
    categoria: Option<string>,
    contatoNome: Option<string>,
    contatoEmail: Option<string>,
    contatoTelefone: Option<string>)

  datatype ProdutoFields = ProdutoFields(
    nome: string,
    sku: string,
    precoCusto: Decimal,
    precoVenda: Decimal,
    estoqueAtual: int,
    fornecedorId: Option<Id>)

  type Cliente = Row<ClienteFields>
  type Fornecedor = Row<FornecedorFields>
  type Produto = Row<ProdutoFields>

  /** The `{id, razao_social}` projection of a supplier attached to a product when products are listed. */
  datatype SupplierRef = SupplierRef(id: Id, razaoSocial: string)

  /** A listed product together with its resolved supplier (null when there is none). */
  datatype ProdutoView = ProdutoView(row: Produto, fornecedor: Option<SupplierRef>)

  /** The product rows under a list of product views. */
  function RowsOf(views: seq<ProdutoView>): (r: seq<Produto>)
    ensures |r| == |views|
    ensures forall k :: 0 <= k < |r| ==> r[k] == views[k].row
  {
    seq(|views|, k requires 0 <= k < |views| => views[k].row)
  }

  /** Some row of `rows` has identifier `id`. */
  predicate HasId<F>(rows: seq<Row<F>>, id: Id)
  {
    exists i :: 0 <= i < |rows| && rows[i].id == id
  }

  /** No two rows share an identifier (the tables' primary key). */
  predicate UniqueIds<F>(rows: seq<Row<F>>)
  {
    forall i, j :: 0 <= i < j < |rows| ==> rows[i].id != rows[j].id
  }

  /** Dropping the first row keeps identifiers unique, and no later row
      shares the first row's identifier. */
  lemma TailKeepsUniqueIds<F>(rows: seq<Row<F>>)
    requires |rows| > 0 && UniqueIds(rows)
    ensures UniqueIds(rows[1..]) && !HasId(rows[1..], rows[0].id)
  {
    var tail := rows[1..];
    forall i, j | 0 <= i < j < |tail| ensures tail[i].id != tail[j].id {
      assert tail[i] == rows[i + 1] && tail[j] == rows[j + 1];
    }
    forall i | 0 <= i < |tail| ensures tail[i].id != rows[0].id {
      assert tail[i] == rows[i + 1];
    }
  }

  /** Putting a row with an unused identifier in front keeps identifiers unique. */
  lemma ConsKeepsUniqueIds<F>(x: Row<F>, rows: seq<Row<F>>)
    requires UniqueIds(rows) && !HasId(rows, x.id)
    ensures UniqueIds([x] + rows)
  {
    var r := [x] + rows;
    forall i, j | 0 <= i < j < |r| ensures r[i].id != r[j].id {
      assert r[j] == rows[j - 1];
      if i > 0 {
        assert r[i] == rows[i - 1];
      }
    }
  }

  /** One column of an update: an absent column keeps its current value. */
  function Put<T>(current: T, change: Option<T>): T
  {
    if change.Some? then change.value else current
  }

  /** An update of `clientes`: every column is optional; a nullable column
      may be set to null (`Some(None)`). */
  datatype ClientePatch = ClientePatch(
    nome: Option<string>,
    cpfCnpj: Option<string>,
    email: Option<Option<string>>,
    telefone: Option<Option<string>>,
    enderecoRua: Option<Option<string>>,
    enderecoNumero: Option<Option<string>>,
    enderecoCidade: Option<Option<string>>,
    enderecoEstado: Option<Option<string>>,
    enderecoCep: Option<Option<string>>)

  function PatchCliente(f: ClienteFields, p: ClientePatch): ClienteFields
  {
    ClienteFields(
      Put(f.nome, p.nome), Put(f.cpfCnpj, p.cpfCnpj),
      Put(f.email, p.email), Put(f.telefone, p.telefone),
      Put(f.enderecoRua, p.enderecoRua), Put(f.enderecoNumero, p.enderecoNumero),
      Put(f.enderecoCidade, p.enderecoCidade), Put(f.enderecoEstado, p.enderecoEstado),
      Put(f.enderecoCep, p.enderecoCep))
  }

  /** The patch that sets every column to the values of `f`. */
  function ClienteColumns(f: ClienteFields): (p: ClientePatch)
    ensures forall g :: PatchCliente(g, p) == f
  {
    ClientePatch(
      Some(f.nome), Some(f.cpfCnpj), Some(f.email), Some(f.telefone),
      Some(f.enderecoRua), Some(f.enderecoNumero), Some(f.enderecoCidade),
      Some(f.enderecoEstado), Some(f.enderecoCep))
  }

  datatype FornecedorPatch = FornecedorPatch(
    razaoSocial: Option<string>,
    cnpj: Option<string>,
    categoria: Option<Option<string>>,
    contatoNome: Option<Option<string>>,
    contatoEmail: Option<Option<string>>,
    contatoTelefone: Option<Option<string>>)

  function PatchFornecedor(f: FornecedorFields, p: FornecedorPatch): FornecedorFields
  {
    FornecedorFields(
      Put(f.razaoSocial, p.razaoSocial), Put(f.cnpj, p.cnpj),
      Put(f.categoria, p.categoria), Put(f.contatoNome, p.contatoNome),
      Put(f.contatoEmail, p.contatoEmail), Put(f.contatoTelefone, p.contatoTelefone))
  }

  /** The patch that sets every column to the values of `f`. */
  function FornecedorColumns(f: FornecedorFields): (p: FornecedorPatch)
    ensures forall g :: PatchFornecedor(g, p) == f
  {
    FornecedorPatch(
      Some(f.razaoSocial), Some(f.cnpj), Some(f.categoria),
      Some(f.contatoNome), Some(f.contatoEmail), Some(f.contatoTelefone))
  }

  datatype ProdutoPatch = ProdutoPatch(
    nome: Option<string>,
    sku: Option<string>,
    precoCusto: Option<Decimal>,
    precoVenda: Option<Decimal>,
    estoqueAtual: Option<int>,
    fornecedorId: Option<Option<Id>>)

  function PatchProduto(f: ProdutoFields, p: ProdutoPatch): ProdutoFields
  {
    ProdutoFields(
      Put(f.nome, p.nome), Put(f.sku, p.sku),
      Put(f.precoCusto, p.precoCusto), Put(f.precoVenda, p.precoVenda),
      Put(f.estoqueAtual, p.estoqueAtual), Put(f.fornecedorId, p.fornecedorId))
  }

  /** The patch that sets every column to the values of `f`. */
  function ProdutoColumns(f: ProdutoFields): (p: ProdutoPatch)
    ensures forall g :: PatchProduto(g, p) == f
  {
    ProdutoPatch(
      Some(f.nome), Some(f.sku), Some(f.precoCusto), Some(f.precoVenda),
      Some(f.estoqueAtual), Some(f.fornecedorId))
  }
}

=== FILE: scenarios.dfy ===
/** Properties that span several calls: what a list shows after a write,
    repeated deletes, suppliers that disappear under their products, the
    dashboard figures against the store, and a save racing a delete. */
module Scenarios {
  import opened Base
  import opened Rows
  import opened Ordering
  import opened Gateway
  import opened QueryCache
  import opened Sync
  import opened Forms
  import Dashboard
  import UseClientes
  import UseFornecedores
  import UseProdutos
  import ClientesPage
  import ProdutosPage

  /** After a customer is created, the next list shows it exactly once, and
      first when it is newer than every stored customer. */
  lemma {:induction false} CreatedListedOnce(app: App, user: Option<Id>, input: ClienteFields, freshId: Id, now: nat)
    requires Consistent(app.store)
    requires UseClientes.Create(app, user, input, freshId, now, None).result.Ok?
    ensures var created := UseClientes.Create(app, user, input, freshId, now, None);
      var listed := UseClientes.Fetch(created.app, None).result.value;
      && multiset(listed)[created.result.value] == 1
      && UniqueIds(listed)
      && ((forall k :: 0 <= k < |app.store.clientes| ==> app.store.clientes[k].createdAt < now) ==>
            listed[0] == created.result.value)
  {
    var t := app.store.clientes;
    var row := Row(freshId, user.value, now, input);
    InsertedListedOnce(t, row, None);
    if forall k :: 0 <= k < |t| ==> t[k].createdAt < now {
      NewestRowListedFirst(t, row);
    }
  }

  /** After a product is deleted, no list shows a product with that identifier. */
  lemma DeletedNotListed(app: App, id: Id)
    ensures var deleted := UseProdutos.Delete(app, id, None);
      var listed := UseProdutos.Fetch(deleted.app, None).result.value;
      forall k :: 0 <= k < |listed| ==> listed[k].row.id != id
  {
    var deleted := UseProdutos.Delete(app, id, None);
    var listed := UseProdutos.Fetch(deleted.app, None).result.value;
    forall k | 0 <= k < |listed| ensures listed[k].row.id != id {
      var rows := RowsOf(listed);
      assert rows[k] in multiset(deleted.app.store.produtos);
      var j :| 0 <= j < |deleted.app.store.produtos| && deleted.app.store.produtos[j] == rows[k];
    }
  }

  /** Deleting the same customer twice succeeds both times; the second call changes no row. */
  lemma DeleteTwice(app: App, id: Id)
    ensures var first := UseClientes.Delete(app, id, None);
      var second := UseClientes.Delete(first.app, id, None);
      && first.result.Ok? && second.result.Ok?
      && second.app.store == first.app.store
  {
  }

  /** Deleting a supplier leaves the cached product list untouched; once the
      products are listed again, those that referred to it show no supplier
      while still keeping the reference. */
  lemma SupplierDeletedUnderProducts(app: App, id: Id)
    requires Consistent(app.store)
    ensures var deleted := UseFornecedores.Delete(app, id, None);
      && deleted.app.cache.produtos == app.cache.produtos
      && deleted.app.store.produtos == app.store.produtos
      && var listed := UseProdutos.Fetch(deleted.app, None).result.value;
         forall k :: 0 <= k < |listed| && listed[k].row.fields.fornecedorId == Some(id) ==>
           listed[k].fornecedor.None?
  {
  }

  /** Once the lists have loaded, the dashboard's counts are the numbers of stored rows. */
  lemma TotalsMatchStore(app: App)
    ensures Dashboard.Total(Data(UseClientes.Fetch(app, None).app.cache.clientes)) == |app.store.clientes|
    ensures Dashboard.Total(Data(UseFornecedores.Fetch(app, None).app.cache.fornecedores)) == |app.store.fornecedores|
    ensures Dashboard.Total(Data(UseProdutos.Fetch(app, None).app.cache.produtos)) == |app.store.produtos|
  {
    var c := UseClientes.Fetch(app, None).result.value;
    var f := UseFornecedores.Fetch(app, None).result.value;
    var p := RowsOf(UseProdutos.Fetch(app, None).result.value);
    assert |multiset(c)| == |multiset(app.store.clientes)|;
    assert |multiset(f)| == |multiset(app.store.fornecedores)|;
    assert |multiset(p)| == |multiset(app.store.produtos)|;
  }

  /** The stock value of the loaded product list is the stock value of the stored products. */
  lemma StockValueMatchesStore(app: App)
    ensures Dashboard.StockSum(RowsOf(UseProdutos.Fetch(app, None).result.value)) == Dashboard.StockSum(app.store.produtos)
  {
    Dashboard.StockSumPermutation(RowsOf(UseProdutos.Fetch(app, None).result.value), app.store.produtos);
  }

  /** Saving an edit of a customer that was deleted meanwhile fails: the
      dialog stays open with its fields, nothing is written, and the toast
      falls back to the generic description. */
  lemma EditAfterDelete(f: ClientesPage.State, app: App, user: Option<Id>, freshId: Id, now: nat)
    requires f.editing.Some?
    ensures var gone := UseClientes.Delete(app, f.editing.value.id, None).app;
      var o := ClientesPage.HandleSubmit(f, gone, user, freshId, now, None);
      o.form == f && o.app == gone && o.notice == Failure(ClientesPage.SaveFailed, FallbackMessage)
  {
  }

  /** While every product was saved through the browser-checked form, the
      dashboard's stock value is never negative, whatever save comes next. */
  lemma GatedSubmitsKeepStockValueNonNegative(f: ProdutosPage.State, app: App, user: Option<Id>, freshId: Id, now: nat, fault: Option<Fault>)
    requires ProdutosPage.Submittable(f.draft) && ProdutosPage.AllSane(app.store.produtos)
    ensures Dashboard.StockSum(ProdutosPage.HandleSubmit(f, app, user, freshId, now, fault).app.store.produtos) >= 0.0
  {
    var after := ProdutosPage.HandleSubmit(f, app, user, freshId, now, fault).app.store.produtos;
    ProdutosPage.GatedSubmitKeepsSane(f, app, user, freshId, now, fault);
    assert forall k :: 0 <= k < |after| ==> ProdutosPage.Sane(after[k].fields);
    Dashboard.StockSumNonNegative(after);
  }
}

=== FILE: search.dfy ===
/** `Array.prototype.filter` and `slice(0, n)` as the pages use them to
    narrow a listed table. */
module Search {
  /** The elements of `xs` that `keep` accepts, in their order. */
  function Filter<T(==)>(xs: seq<T>, keep: T -> bool): (r: seq<T>)
    ensures |r| <= |xs|
    ensures forall k :: 0 <= k < |r| ==> keep(r[k]) && r[k] in xs
    ensures forall k :: 0 <= k < |xs| && keep(xs[k]) ==> xs[k] in r
    decreases |xs|
  {
    if |xs| == 0 then []
    else
      var rest := Filter(xs[1..], keep);
      assert forall k :: 1 <= k < |xs| ==> xs[k] == xs[1..][k - 1];
      if keep(xs[0]) then [xs[0]] + rest else rest
  }

  /** Filtering distributes over concatenation, so the relative order of
      the kept elements is the order of the list. */
  lemma {:induction false} FilterAppend<T>(a: seq<T>, b: seq<T>, keep: T -> bool)
    ensures Filter(a + b, keep) == Filter(a, keep) + Filter(b, keep)
    decreases |a|
  {
    if |a| > 0 {
      assert (a + b)[0] == a[0] && (a + b)[1..] == a[1..] + b;
      FilterAppend(a[1..], b, keep);
      var head: seq<T> := if keep(a[0]) then [a[0]] else [];
      assert Filter(a, keep) == head + Filter(a[1..], keep);
      assert Filter(a + b, keep) == head + Filter(a[1..] + b, keep);
      assert head + (Filter(a[1..], keep) + Filter(b, keep)) == (head + Filter(a[1..], keep)) + Filter(b, keep);
    } else {
      assert a + b == b;
    }
  }

  /** A filter that accepts every element returns the list itself. */
  lemma {:induction false} FilterKeepsAll<T>(xs: seq<T>, keep: T -> bool)
    requires forall k :: 0 <= k < |xs| ==> keep(xs[k])
    ensures Filter(xs, keep) == xs
    decreases |xs|
  {
    if |xs| > 0 {
      FilterKeepsAll(xs[1..], keep);
    }
  }

  /** Two tests that agree on every element keep the same elements. */
  lemma {:induction false} FilterAgree<T>(xs: seq<T>, keep: T -> bool, test: T -> bool)
    requires forall k :: 0 <= k < |xs| ==> keep(xs[k]) == test(xs[k])
    ensures Filter(xs, keep) == Filter(xs, test)
    decreases |xs|
  {
    if |xs| > 0 {
      FilterAgree(xs[1..], keep, test);
    }
  }

  /** The first `n` elements, or all of them when there are fewer (`slice(0, n)`). */
  function Take<T>(xs: seq<T>, n: nat): (r: seq<T>)
    ensures |r| <= n && |r| <= |xs|
    ensures |r| == n || |r| == |xs|
    ensures forall k :: 0 <= k < |r| ==> r[k] == xs[k]
  {
    if |xs| <= n then xs else xs[..n]
  }
}

=== FILE: sync.dfy ===
/** The state the synchronisation layer works on (the store and the query
    cache) and the step shape every hook returns: the result or error
    together with the next state. */
module Sync {
  import opened Base
  import opened Rows
  import opened Gateway
  import opened QueryCache

  datatype App = App(store: Store, cache: Cache)

  /** A hook call: its result or failure, and the state after it. */
  datatype Step<T> = Step(result: Result<T>, app: App)

  /** The create pattern shared by the three hooks: with no signed-in user
      the call fails before any insert is issued; otherwise the input is
      inserted with `user_id` set to the user's id. The new row's
      identifier and creation time are assigned by the store. */
  function CreateOwned<F>(t: seq<Row<F>>, user: Option<Id>, input: F, freshId: Id, now: nat, fault: Option<Fault>)
    : (w: Written<Row<F>, F>)
    ensures user.None? ==> w == Written(Err(Unauthenticated), t)
    ensures user.Some? ==> w == Insert(t, Row(freshId, user.value, now, input), fault)
    ensures w.result.Ok? ==> user.Some? && w.result.value == Row(freshId, user.value, now, input)
    ensures w.result.Ok? <==> user.Some? && fault.None? && !HasId(t, freshId)
    ensures UniqueIds(t) ==> UniqueIds(w.table)
  {
    match user
    case None => Written(Err(Unauthenticated), t)
    case Some(u) =>
      InsertKeepsUniqueIds(t, Row(freshId, u, now, input), fault);
      Insert(t, Row(freshId, u, now, input), fault)
  }

  /** A mutation's `onSuccess`: a successful write leaves its table behind
      and invalidates the key `k`; a failed one changes nothing. */
  function Commit<T>(app: App, result: Result<T>, store: Store, k: Key): (s: Step<T>)
    ensures s.result == result
    ensures result.Ok? ==> s.app.store == store && SameExcept(app.cache, s.app.cache, k) && StaleAt(app.cache, s.app.cache, k)
    ensures result.Err? ==> s.app == app
  {
    if result.Ok? then Step(result, App(store, Invalidate(app.cache, k))) else Step(result, app)
  }
}

=== FILE: text.dfy ===
/** Text operations the search boxes rely on: lower-casing and substring
    containment (`String.prototype.toLowerCase` and `includes`). */
module Text {

  /** Lower-cases one ASCII letter; every other character is kept. */
  function LowerChar(c: char): char
  {
    if 'A' <= c <= 'Z' then (c as int + 32) as char else c
  }

  predicate IsUpper(c: char)
  {
    'A' <= c <= 'Z'
  }

  /** The ASCII capitals and their small letters, in alphabet order. */
  const Capitals: string := "ABCDEFGHIJKLMNOPQRSTUVWXYZ"
  const Smalls: string := "abcdefghijklmnopqrstuvwxyz"

  /** Lower-cases a string character by character: each capital becomes
      its small letter and every other character is kept. */
  function Lower(s: string): (r: string)
    ensures |r| == |s|
    ensures forall i :: 0 <= i < |r| ==> !IsUpper(r[i])
    ensures forall i :: 0 <= i < |s| && !IsUpper(s[i]) ==> r[i] == s[i]
    ensures forall i, k :: 0 <= i < |s| && 0 <= k < |Capitals| && s[i] == Capitals[k] ==> r[i] == Smalls[k]
  {
    seq(|s|, i requires 0 <= i < |s| => LowerChar(s[i]))
  }

  /** Lower-casing a lower-cased string changes nothing. */
  lemma LowerIdempotent(s: string)
    ensures Lower(Lower(s)) == Lower(s)
  {
  }

  predicate StartsWith(s: string, p: string)
  {
    |p| <= |s| && s[..|p|] == p
  }

  /** `s.includes(q)`, as a scan from the front of `s`. */
  predicate Contains(s: string, q: string)
    decreases |s|
  {
    StartsWith(s, q) || (|s| > 0 && Contains(s[1..], q))
  }

  /** `q` occurs in `s` starting at position `i`. */
  predicate OccursAt(s: string, q: string, i: int)
  {
    0 <= i <= |s| - |q| && s[i..i + |q|] == q
  }

  /** The scan agrees with the positional definition of containment. */
  lemma {:induction false} ContainsIffOccurs(s: string, q: string)
    ensures Contains(s, q) <==> exists i :: OccursAt(s, q, i)
    decreases |s|
  {
    if StartsWith(s, q) {
      assert OccursAt(s, q, 0);
    } else if |s| > 0 {
      ContainsIffOccurs(s[1..], q);
      if Contains(s[1..], q) {
        var i :| OccursAt(s[1..], q, i);
        assert s[1..][i..i + |q|] == s[i + 1..i + 1 + |q|];
        assert OccursAt(s, q, i + 1);
      }
      forall i | OccursAt(s, q, i)
        ensures OccursAt(s[1..], q, i - 1)
      {
        assert s[1..][i - 1..i - 1 + |q|] == s[i..i + |q|];
      }
    }
  }

  /** Every string contains the empty string, so an empty query matches. */
  lemma ContainsEmpty(s: string)
    ensures Contains(s, "")
  {
    assert StartsWith(s, "");
  }

  /** Every string contains itself. */
  lemma ContainsSelf(s: string)
    ensures Contains(s, s)
  {
    assert StartsWith(s, s);
  }
}

=== FILE: use_clientes.dfy ===
/** The clientes hooks: the list query under key `['clientes']` and the
    create, update and delete mutations, each of which invalidates that key
    when it succeeds. */
module UseClientes {
  import opened Base
  import opened Rows
  import opened Ordering
  import opened Gateway
  import opened QueryCache
  import opened Sync

  /** The list query: all rows, newest first; a failure is reported and the
      cached rows stay as they were. */
  function Fetch(app: App, fault: Option<Fault>): (s: Step<seq<Cliente>>)
    ensures s.result.Err? <==> fault.Some?
    ensures fault.Some? ==> s == Step(Err(Remote(fault.value.message)), app)
    ensures s.result.Ok? ==>
      NewestFirst(s.result.value) && multiset(s.result.value) == multiset(app.store.clientes)
    ensures s.result.Ok? ==> s.app.cache.clientes == Some(Entry(s.result.value, false))
    ensures s.app.store == app.store && SameExcept(app.cache, s.app.cache, ClientesKey)
  {
    var r := Select(app.store.clientes, fault);
    Step(r, app.(cache := app.cache.(clientes := Settle(app.cache.clientes, r))))
  }

  /** Creates a row owned by the signed-in user. */
  function Create(app: App, user: Option<Id>, input: ClienteFields, freshId: Id, now: nat, fault: Option<Fault>)
    : (s: Step<Cliente>)
    ensures user.None? ==> s == Step(Err(Unauthenticated), app)
    ensures user.Some? && fault.Some? ==> s == Step(Err(Remote(fault.value.message)), app)
    ensures s.result.Ok? <==> user.Some? && fault.None? && !HasId(app.store.clientes, freshId)
    ensures s.result.Ok? ==>
      && s.result.value == Row(freshId, user.value, now, input)
      && s.app.store == app.store.(clientes := app.store.clientes + [s.result.value])
      && s.app.cache == Invalidate(app.cache, ClientesKey)
    ensures s.app.store == app.store.(clientes := s.app.store.clientes)
    ensures s.result.Err? ==> s.app == app
    ensures Consistent(app.store) ==> Consistent(s.app.store)
  {
    var w := CreateOwned(app.store.clientes, user, input, freshId, now, fault);
    Commit(app, w.result, app.store.(clientes := w.table), ClientesKey)
  }

  /** Updates the row with identifier `id`; with no such row the call fails. */
  function Update(app: App, id: Id, patch: ClientePatch, fault: Option<Fault>): (s: Step<Cliente>)
    ensures fault.Some? ==> s == Step(Err(Remote(fault.value.message)), app)
    ensures fault.None? && !HasId(app.store.clientes, id) ==> s == Step(Err(NoSingleRow), app)
    ensures s.result.Ok? <==> fault.None? && HasId(app.store.clientes, id)
    ensures s.result.Ok? ==>
      && s.result.value.id == id
      && s.result.value in s.app.store.clientes
    ensures s.result.Ok? ==>
      && |s.app.store.clientes| == |app.store.clientes|
      && (forall i :: 0 <= i < |app.store.clientes| ==>
            s.app.store.clientes[i] == if app.store.clientes[i].id == id
              then app.store.clientes[i].(fields := PatchCliente(app.store.clientes[i].fields, patch))
              else app.store.clientes[i])
      && s.app.cache == Invalidate(app.cache, ClientesKey)
    ensures s.app.store == app.store.(clientes := s.app.store.clientes)
    ensures s.result.Err? ==> s.app == app
    ensures Consistent(app.store) ==> Consistent(s.app.store)
  {
    var w := Gateway.Update(app.store.clientes, id, patch, PatchCliente, fault);
    UpdateKeepsUniqueIds(app.store.clientes, id, patch, PatchCliente, fault);
    Commit(app, w.result, app.store.(clientes := w.table), ClientesKey)
  }

  /** Deletes the rows with identifier `id`; deleting an absent identifier succeeds. */
  function Delete(app: App, id: Id, fault: Option<Fault>): (s: Step<()>)
    ensures fault.Some? ==> s == Step(Err(Remote(fault.value.message)), app)
    ensures s.result.Ok? <==> fault.None?
    ensures s.result.Ok? ==>
      && !HasId(s.app.store.clientes, id)
      && (forall k :: 0 <= k < |app.store.clientes| && app.store.clientes[k].id != id ==>
            app.store.clientes[k] in s.app.store.clientes)
      && (forall k :: 0 <= k < |s.app.store.clientes| ==> s.app.store.clientes[k] in app.store.clientes)
      && s.app.cache == Invalidate(app.cache, ClientesKey)
    ensures s.result.Ok? && !HasId(app.store.clientes, id) ==> s.app.store == app.store
    ensures s.app.store == app.store.(clientes := s.app.store.clientes)
    ensures s.result.Err? ==> s.app == app
    ensures Consistent(app.store) ==> Consistent(s.app.store)
  {
    var w := Gateway.Delete(app.store.clientes, id, fault);
    DeleteKeepsUniqueIds(app.store.clientes, id, fault);
    Commit(app, w.result, app.store.(clientes := w.table), ClientesKey)
  }
}

=== FILE: use_fornecedores.dfy ===
/** The fornecedores hooks: the list query under key `['fornecedores']` and the
    create, update and delete mutations, each of which invalidates that key
    when it succeeds. */
module UseFornecedores {
  import opened Base
  import opened Rows
  import opened Ordering
  import opened Gateway
  import opened QueryCache
  import opened Sync

  /** The list query: all rows, newest first; a failure is reported and the
      cached rows stay as they were. */
  function Fetch(app: App, fault: Option<Fault>): (s: Step<seq<Fornecedor>>)
    ensures s.result.Err? <==> fault.Some?
    ensures fault.Some? ==> s == Step(Err(Remote(fault.value.message)), app)
    ensures s.result.Ok? ==>
      NewestFirst(s.result.value) && multiset(s.result.value) == multiset(app.store.fornecedores)
    ensures s.result.Ok? ==> s.app.cache.fornecedores == Some(Entry(s.result.value, false))
    ensures s.app.store == app.store && SameExcept(app.cache, s.app.cache, FornecedoresKey)
  {
    var r := Select(app.store.fornecedores, fault);
    Step(r, app.(cache := app.cache.(fornecedores := Settle(app.cache.fornecedores, r))))
  }

  /** Creates a row owned by the signed-in user. */
  function Create(app: App, user: Option<Id>, input: FornecedorFields, freshId: Id, now: nat, fault: Option<Fault>)
    : (s: Step<Fornecedor>)
    ensures user.None? ==> s == Step(Err(Unauthenticated), app)
    ensures user.Some? && fault.Some? ==> s == Step(Err(Remote(fault.value.message)), app)
    ensures s.result.Ok? <==> user.Some? && fault.None? && !HasId(app.store.fornecedores, freshId)
    ensures s.result.Ok? ==>
      && s.result.value == Row(freshId, user.value, now, input)
      && s.app.store == app.store.(fornecedores := app.store.fornecedores + [s.result.value])
      && s.app.cache == Invalidate(app.cache, FornecedoresKey)
    ensures s.app.store == app.store.(fornecedores := s.app.store.fornecedores)
    ensures s.result.Err? ==> s.app == app
    ensures Consistent(app.store) ==> Consistent(s.app.store)
  {
    var w := CreateOwned(app.store.fornecedores, user, input, freshId, now, fault);
    Commit(app, w.result, app.store.(fornecedores := w.table), FornecedoresKey)
  }

  /** Updates the row with identifier `id`; with no such row the call fails. */
  function Update(app: App, id: Id, patch: FornecedorPatch, fault: Option<Fault>): (s: Step<Fornecedor>)
    ensures fault.Some? ==> s == Step(Err(Remote(fault.value.message)), app)
    ensures fault.None? && !HasId(app.store.fornecedores, id) ==> s == Step(Err(NoSingleRow), app)
    ensures s.result.Ok? <==> fault.None? && HasId(app.store.fornecedores, id)
    ensures s.result.Ok? ==>
      && s.result.value.id == id
      && s.result.value in s.app.store.fornecedores
    ensures s.result.Ok? ==>
      && |s.app.store.fornecedores| == |app.store.fornecedores|
      && (forall i :: 0 <= i < |app.store.fornecedores| ==>
            s.app.store.fornecedores[i] == if app.store.fornecedores[i].id == id
              then app.store.fornecedores[i].(fields := PatchFornecedor(app.store.fornecedores[i].fields, patch))
              else app.store.fornecedores[i])
      && s.app.cache == Invalidate(app.cache, FornecedoresKey)
    ensures s.app.store == app.store.(fornecedores := s.app.store.fornecedores)
    ensures s.result.Err? ==> s.app == app
    ensures Consistent(app.store) ==> Consistent(s.app.store)
  {
    var w := Gateway.Update(app.store.fornecedores, id, patch, PatchFornecedor, fault);
    UpdateKeepsUniqueIds(app.store.fornecedores, id, patch, PatchFornecedor, fault);
    Commit(app, w.result, app.store.(fornecedores := w.table), FornecedoresKey)
  }

  /** Deletes the rows with identifier `id`; deleting an absent identifier succeeds. */
  function Delete(app: App, id: Id, fault: Option<Fault>): (s: Step<()>)
    ensures fault.Some? ==> s == Step(Err(Remote(fault.value.message)), app)
    ensures s.result.Ok? <==> fault.None?
    ensures s.result.Ok? ==>
      && !HasId(s.app.store.fornecedores, id)
      && (forall k :: 0 <= k < |app.store.fornecedores| && app.store.fornecedores[k].id != id ==>
            app.store.fornecedores[k] in s.app.store.fornecedores)
      && (forall k :: 0 <= k < |s.app.store.fornecedores| ==> s.app.store.fornecedores[k] in app.store.fornecedores)
      && s.app.cache == Invalidate(app.cache, FornecedoresKey)
    ensures s.result.Ok? && !HasId(app.store.fornecedores, id) ==> s.app.store == app.store
    ensures s.app.store == app.store.(fornecedores := s.app.store.fornecedores)
    ensures s.result.Err? ==> s.app == app
    ensures Consistent(app.store) ==> Consistent(s.app.store)
  {
    var w := Gateway.Delete(app.store.fornecedores, id, fault);
    DeleteKeepsUniqueIds(app.store.fornecedores, id, fault);
    Commit(app, w.result, app.store.(fornecedores := w.table), FornecedoresKey)
  }
}

=== FILE: use_produtos.dfy ===
/** The produtos hooks: the list query under key `['produtos']`, which also
    resolves each product's supplier, and the
    create, update and delete mutations, each of which invalidates that key
    when it succeeds. */
module UseProdutos {
  import opened Base
  import opened Rows
  import opened Ordering
  import opened Gateway
  import opened QueryCache
  import opened Sync

  /** The list query: all products, newest first, each with the supplier
      it refers to (none when the reference is null or dangling); a failure
      is reported and the cached rows stay as they were. */
  function Fetch(app: App, fault: Option<Fault>): (s: Step<seq<ProdutoView>>)
    ensures s.result.Err? <==> fault.Some?
    ensures fault.Some? ==> s == Step(Err(Remote(fault.value.message)), app)
    ensures s.result.Ok? ==>
      NewestFirst(RowsOf(s.result.value)) && multiset(RowsOf(s.result.value)) == multiset(app.store.produtos)
    ensures s.result.Ok? ==> forall k :: 0 <= k < |s.result.value| ==>
      s.result.value[k].fornecedor == SupplierOf(app.store.fornecedores, s.result.value[k].row.fields.fornecedorId)
    ensures s.result.Ok? ==> s.app.cache.produtos == Some(Entry(s.result.value, false))
    ensures s.app.store == app.store && SameExcept(app.cache, s.app.cache, ProdutosKey)
  {
    var r := SelectProdutos(app.store, fault);
    Step(r, app.(cache := app.cache.(produtos := Settle(app.cache.produtos, r))))
  }

  /** Creates a row owned by the signed-in user. */
  function Create(app: App, user: Option<Id>, input: ProdutoFields, freshId: Id, now: nat, fault: Option<Fault>)
    : (s: Step<Produto>)
    ensures user.None? ==> s == Step(Err(Unauthenticated), app)
    ensures user.Some? && fault.Some? ==> s == Step(Err(Remote(fault.value.message)), app)
    ensures s.result.Ok? <==> user.Some? && fault.None? && !HasId(app.store.produtos, freshId)
    ensures s.result.Ok? ==>
      && s.result.value == Row(freshId, user.value, now, input)
      && s.app.store == app.store.(produtos := app.store.produtos + [s.result.value])
      && s.app.cache == Invalidate(app.cache, ProdutosKey)
    ensures s.app.store == app.store.(produtos := s.app.store.produtos)
    ensures s.result.Err? ==> s.app == app
    ensures Consistent(app.store) ==> Consistent(s.app.store)
  {
    var w := CreateOwned(app.store.produtos, user, input, freshId, now, fault);
    Commit(app, w.result, app.store.(produtos := w.table), ProdutosKey)
  }

  /** Updates the row with identifier `id`; with no such row the call fails. */
  function Update(app: App, id: Id, patch: ProdutoPatch, fault: Option<Fault>): (s: Step<Produto>)
    ensures fault.Some? ==> s == Step(Err(Remote(fault.value.message)), app)
    ensures fault.None? && !HasId(app.store.produtos, id) ==> s == Step(Err(NoSingleRow), app)
    ensures s.result.Ok? <==> fault.None? && HasId(app.store.produtos, id)
    ensures s.result.Ok? ==>
      && s.result.value.id == id
      && s.result.value in s.app.store.produtos
    ensures s.result.Ok? ==>
      && |s.app.store.produtos| == |app.store.produtos|
      && (forall i :: 0 <= i < |app.store.produtos| ==>
            s.app.store.produtos[i] == if app.store.produtos[i].id == id
              then app.store.produtos[i].(fields := PatchProduto(app.store.produtos[i].fields, patch))
              else app.store.produtos[i])
      && s.app.cache == Invalidate(app.cache, ProdutosKey)
    ensures s.app.store == app.store.(produtos := s.app.store.produtos)
    ensures s.result.Err? ==> s.app == app
    ensures Consistent(app.store) ==> Consistent(s.app.store)
  {
    var w := Gateway.Update(app.store.produtos, id, patch, PatchProduto, fault);
    UpdateKeepsUniqueIds(app.store.produtos, id, patch, PatchProduto, fault);
    Commit(app, w.result, app.store.(produtos := w.table), ProdutosKey)
  }

  /** Deletes the rows with identifier `id`; deleting an absent identifier succeeds. */
  function Delete(app: App, id: Id, fault: Option<Fault>): (s: Step<()>)
    ensures fault.Some? ==> s == Step(Err(Remote(fault.value.message)), app)
    ensures s.result.Ok? <==> fault.None?
    ensures s.result.Ok? ==>
      && !HasId(s.app.store.produtos, id)
      && (forall k :: 0 <= k < |app.store.produtos| && app.store.produtos[k].id != id ==>
            app.store.produtos[k] in s.app.store.produtos)
      && (forall k :: 0 <= k < |s.app.store.produtos| ==> s.app.store.produtos[k] in app.store.produtos)
      && s.app.cache == Invalidate(app.cache, ProdutosKey)
    ensures s.result.Ok? && !HasId(app.store.produtos, id) ==> s.app.store == app.store
    ensures s.app.store == app.store.(produtos := s.app.store.produtos)
    ensures s.result.Err? ==> s.app == app
    ensures Consistent(app.store) ==> Consistent(s.app.store)
  {
    var w := Gateway.Delete(app.store.produtos, id, fault);
    DeleteKeepsUniqueIds(app.store.produtos, id, fault);
    Commit(app, w.result, app.store.(produtos := w.table), ProdutosKey)
  }
}
